=== FILE: README.md ===
# Coffee shop store: a Dafny model

This project models the order and inventory logic of a small coffee business. The business sells
bags of roasted beans online and delivers brewed coffee to an office. The model covers:

- The FastAPI back end (`backend/main.py`):
  - placing a bean order (`POST /bean_orders`), which checks stock item by item and reserves it;
  - placing a delivery order (`POST /orders`);
  - the admin status update of a delivery order;
  - the admin partial product update;
  - the in-stock bean list published by `GET /settings`;
  - the admin role check.
- The one-shot YAML-to-database migration (`backend/migrate.py`), an insert-if-absent merge of
  five collections in one transaction.
- The client-side state logic of the React front end:
  - the shopping-cart reducers and checkout;
  - the subscription item editor;
  - the status badges of the order-detail and subscription pages;
  - the admin route guard.

The database is an immutable value (`Store.Db`) holding maps keyed the way the tables are.
Every request is one pure transition. It returns the new database and either the result or an
HTTP error (`Store.Reply`). On an error the database returned is the one passed in, which
models the rollback.

The current date is a parameter. The authenticated user is a given `Principal` record.

Modules (one per file):

| module | file | models |
|---|---|---|
| `Wrappers` | wrappers.dfy | `Option` and `Result` |
| `Store` | store.dfy | ORM rows, the database value, HTTP errors |
| `Auth` | auth.dfy | the admin role check |
| `OrderIds` | order_ids.dfy | `bo-NNN` bean-order ids and delivery-order ids |
| `BeanOrders` | bean_orders.dfy | `POST /bean_orders` |
| `Delivery` | delivery.dfy | `POST /orders`, the delivery status update, `GET /settings` |
| `Products` | products.dfy | `PATCH /admin/products/{id}` |
| `Migration` | migrate.dfy | `backend/migrate.py` |
| `Cart` | cart.dfy | the cart reducers of `CartContext.jsx` |
| `Checkout` | checkout.dfy | total and checkout of `ShoppingCartPage.jsx` |
| `SubscriptionEditor` | subscription_editor.dfy | item editor and submit of `SubscriptionModal.jsx` |
| `JsLookup` | js_lookup.dfy | object-literal lookup with `||` fallback, as the badges use it |
| `OrderDetail` | order_detail.dfy | status badge, subtotals, placeholders of `OrderDetailPage.jsx` |
| `SubscriptionBadges` | subscription_badges.dfy | status badge of `SubscriptionPage.jsx` |
| `AdminRoute` | admin_route.dfy | `AdminProtectedRoute.jsx` |

Some behaviours of the code may surprise a reader; the model follows the code:

- `decreaseQuantity` on a line at quantity 1 leaves the line at 1. It does not remove it.
- A delivery order lowers its bean's stock by one.
- Status updates accept any string. There is no transition check and no history log.
- The product update accepts negative prices and stock.

Two behaviours of the database session matter. The session is created with `autoflush=False`
(backend/main.py:35), so inside the migration an existence check does not see the records added
earlier in the same run:

- Two YAML records with the same new key are both added. The database rejects the duplicate
  when the pending rows are written, and the whole run is rolled back. This is modelled as
  `Err(DuplicateKey)`. For users, products and bean orders the rows are written by the explicit
  `db.flush()` (backend/migrate.py:91); only a duplicate delivery-order id reaches the commit
  (backend/migrate.py:112).
- Users are looked up by e-mail, but `id` is the table's primary key (backend/main.py:89) and
  the YAML record supplies it. A new user whose id is taken, or two new users with one id, also
  fail at the flush.
- An item without `quantity` raises while the bean orders are read, before any flush, so it
  is the error reported when it occurs together with a duplicate key.
- The explicit flush before the delivery orders is also why those orders do see the inventory
  added by the same run.

Likewise, a generated order id that already exists makes the commit fail. The endpoint answers
500 and changes nothing.

## Model

| member | source | states |
|---|---|---|
| Auth.RequireAdmin | backend/main.py:240-246 | A caller passes exactly when the role is the string `admin`, and is then returned unchanged. Anyone else gets 403 Forbidden. |
| AdminRoute.Guard | src/AdminProtectedRoute.jsx:9-27 | With no user loaded the route shows the loading message. A loaded user whose role is not `admin` is redirected to `/store` with `replace`. Otherwise the children are rendered unchanged. |
| AdminRoute.RendersIffAdmin | src/AdminProtectedRoute.jsx:12-26 | The children are rendered if and only if a user is loaded and the role is exactly `admin`. |
| AdminRoute.AgreesWithServerGuard | src/AdminProtectedRoute.jsx:18-26 | The client guard renders the admin page for exactly the users the server's admin check accepts. |
| OrderIds.FormatBeanOrderId | backend/main.py:421-422 | The new bean-order id is `bo-` followed by at least three decimal digits. It has exactly six characters while fewer than 999 orders exist. |
| OrderIds.DeliveryOrderId | backend/main.py:363-364 | The new delivery-order id is the number of existing orders plus 1001, so it is never below 1001. |
| OrderIds.ParseDecimalOfDecimal | backend/main.py:421-422 | Reading back the decimal rendering of a count gives the count. |
| OrderIds.ParseDecimalOfZeroPad | backend/main.py:421-422 | Zero padding does not change the number the digits denote. |
| OrderIds.BeanOrderIdRoundTrip | backend/main.py:421-422 | Parsing a generated bean-order id recovers the order count it was made from. |
| OrderIds.BeanOrderIdInjective | backend/main.py:421-422 | Different order counts produce different bean-order ids. |
| BeanOrders.Reserve | backend/main.py:425-434 | Checking and reserving the items one after another. On success: every product exists; only stock fields change; each product's stock drops by the total quantity ordered of it; the total is the sum of server price times quantity. A failure is 400. |
| BeanOrders.ReserveKeepsStockNonNegative | backend/main.py:428-434 | After a successful reservation every ordered product's stock is non-negative. |
| BeanOrders.ReserveSucceedsIffFeasible | backend/main.py:425-434 | The reservation succeeds if and only if, for every item, its product exists and its stock minus the quantities of the earlier items for that product covers the item's quantity. |
| BeanOrders.PriceTotalFrame | backend/main.py:429-433 | Changing only stock fields does not change the order total. |
| BeanOrders.RepeatedProductSharesStock | backend/main.py:428-434 | A product listed twice succeeds exactly when its stock covers both quantities together, because the second line is checked against the lowered stock. |
| BeanOrders.CreateBeanOrder | backend/main.py:408-483 | The call succeeds exactly when the stock walk succeeds and the next `bo-` id is not taken. A stock failure is 400; a successful walk with a taken id is 500; both leave the database as it was. On success the order gets that id, status `paid`, the caller's id, the date and address, and the server-side total. Each product's stock drops by its ordered quantity, one item row per submitted item is appended in order, and no other table changes. |
| Delivery.CreateOrder | backend/main.py:343-401 | The call is 400 exactly when the bean is unknown or its stock is not positive. On success: the bean's stock drops by one and stays non-negative; other beans are unchanged; a `pending` order with id count+1001 and the request's fields is added. An id clash is 500. Every failure changes nothing. |
| Delivery.UpdateDeliveryStatus | backend/main.py:538-554 | A non-admin gets 403 and an unknown id 404, both without change. Otherwise that order's status becomes the given string and every other order and table is unchanged. |
| Delivery.AvailableBeans | backend/main.py:323-325 | The published bean map holds exactly the beans whose stock is positive, each with its stock. |
| Delivery.GetSettings | backend/main.py:318-341 | The settings carry the fixed shop name and opening hours and the in-stock bean map. |
| Delivery.OfferedBeansAreOrderable | backend/main.py:323-325 | A delivery order is refused with 400 if and only if its bean is missing from the published in-stock list. |
| Delivery.ConsecutiveOrderIds | backend/main.py:363-364 | Two delivery orders placed one after the other get consecutive ids. |
| Delivery.LastUnitLeavesSettings | backend/main.py:323-325 | After an order, the bean stays in the published list exactly when it had more than one unit, and every other bean's presence is unchanged. |
| Delivery.StatusUpdateHasNoTransitionCheck | backend/main.py:546-552 | An admin can move a delivered order back to `pending`; no transition is checked. |
| Delivery.StatusUpdateIdempotent | backend/main.py:546-552 | Repeating a successful status update leaves the database as the first update left it. |
| Products.ApplyUpdate | backend/main.py:579-583 | Every field present in the update is overwritten with its value, and every absent field, the id and the image keep theirs. |
| Products.UpdateProduct | backend/main.py:585-612 | A non-admin gets 403 and an unknown id 404, both without change. Otherwise only that product changes, and only in the fields present; the updated product is returned. |
| Products.EditThenRead | backend/main.py:601-610 | After setting price and stock, the product reads back with exactly those values and its other fields unchanged. |
| Products.NegativeStockAccepted | backend/main.py:601-604 | A negative stock is stored as sent; nothing checks the sign. |
| Products.EmptyUpdateIsIdentity | backend/main.py:601-604 | An update with no field set leaves the database unchanged. |
| Products.UpdateIdempotent | backend/main.py:601-604 | Applying the same update twice has the effect of applying it once. |
| Migration.InsertAbsentIsFresh | backend/migrate.py:43-107 | The record-by-record insert-if-absent loop adds exactly the eligible records whose key is absent from the database at the start. It fails exactly when two of those records share a key. |
| Migration.MergeTable | backend/migrate.py:43-57 | The merge keeps every existing row. It stores every eligible record whose key was absent exactly as given, and every new row comes from such a record. It fails (duplicate key) exactly when two such records share a key. |
| Migration.MergeTableNothingFresh | backend/migrate.py:44-46 | When every eligible record's key is already present, the merge returns the table unchanged. |
| Migration.MergeInventory | backend/migrate.py:83-87 | The merged inventory holds the old names and the YAML names. An existing name keeps its stock and a new name gets the YAML stock. |
| Migration.MergeUsers | backend/migrate.py:43-47 | The users merge fails with a duplicate key exactly when two new users share an e-mail, or a new user's id equals another new user's id or a stored user's id; otherwise it is the e-mail-keyed merge. |
| Migration.ItemProductId | backend/migrate.py:69 | An item's product id is its `product_id` key when present, otherwise its `id` key. |
| Migration.ItemRows | backend/migrate.py:68-75 | Building the rows fails, with a missing quantity, exactly when an item with a truthy product id has no quantity. Every row carries the order id and a non-empty product id and quantity taken from one of the items. |
| Migration.AllItemRows | backend/migrate.py:63-76 | The item rows of all new bean orders. Building them fails, with a missing quantity, exactly when one order's items do. |
| Migration.ItemProductIdFallback | backend/migrate.py:68-75 | For every item: a truthy `product_id` gives a row with that id; an absent `product_id` and a truthy `id` give a row with the `id`; otherwise (a null or empty `product_id`, or neither key) the item is skipped; an item with a product id and no quantity aborts the run. |
| Migration.ItemRowsAppend | backend/migrate.py:68-75 | The rows of two item lists placed one after the other are the rows of the first followed by the rows of the second, and they can be built exactly when both can. |
| Migration.ItemRowsSnoc | backend/migrate.py:68-75 | As the loop runs, the last item adds its row (product id and quantity) after all earlier rows when its product id is truthy, and adds nothing otherwise. |
| Migration.AllItemRowsAppend | backend/migrate.py:61-76 | The rows of two lists of new orders are the rows of the first list followed by those of the second. |
| Migration.AllItemRowsOfOne | backend/migrate.py:61-76 | A single new order contributes exactly its own item rows. |
| Migration.AllItemRowsOkIff | backend/migrate.py:68-75 | The rows of the new orders can be built exactly when every item with a truthy product id in them has a quantity. |
| Migration.Migrate | backend/migrate.py:39-112 | Existing users, products, bean orders, inventory entries and delivery orders are never overwritten, and the old item rows stay in front of the new ones. |
| Migration.MigrateStoresAbsentRecords | backend/migrate.py:43-107 | After a successful run every YAML record's key is present; a record whose key was absent is stored exactly as given. The inventory holds the old names and the YAML names. A delivery order is stored when its bean is in the merged inventory. |
| Migration.MigrateAddsOnlyYamlRows | backend/migrate.py:43-107 | Every user, product and delivery order that was not there before comes from the YAML data, and every new delivery order names a bean of the merged inventory. |
| Migration.MigrateRun | backend/migrate.py:111-118 | A successful run commits exactly the merged database; a failed run leaves the database as it was. |
| Migration.MigrateIdempotent | backend/migrate.py:44-107 | Running the merge again on the same YAML data and the committed database commits that same database. |
| Migration.DuplicateNewUserRollsBack | backend/migrate.py:43-47 | Two YAML users with the same e-mail not yet in the database make the whole run fail and roll back; the error is the duplicate key unless an item without quantity came first. |
| Migration.NewUserWithTakenIdRollsBack | backend/migrate.py:43-47 | A YAML user with a new e-mail but the id of a stored user makes the whole run fail and roll back. |
| Migration.NewUsersSharingIdRollBack | backend/migrate.py:43-47 | Two YAML users with different new e-mails and the same id make the whole run fail and roll back. |
| Migration.MigrateSucceedsIff | backend/migrate.py:39-112 | The run commits exactly when every new bean order's items carry quantities, the new users have distinct e-mails and untaken distinct ids, and the new products, bean orders and delivery orders (with a known bean) each have distinct keys. |
| Migration.OrderSeesInventoryOfSameRun | backend/migrate.py:83-107 | A delivery order whose bean appears only in the YAML inventory is still migrated, because the flush makes that inventory visible. |
| Cart.Without | frontend/src/CartContext.jsx:42-44 | Filtering out an id keeps every line of another product and nothing else. |
| Cart.WithoutKeepsWellFormed | frontend/src/CartContext.jsx:42-44 | Filtering a cart with at most one line per product and quantities of at least 1 keeps both properties. |
| Cart.IncreaseQuantity | frontend/src/CartContext.jsx:26-32 | The line for the id gains one unit. Every other line and the order of lines stay as they were; an absent id changes nothing; one-line-per-id is preserved. |
| Cart.AddToCart | frontend/src/CartContext.jsx:12-24 | A product already in the cart gains one unit on its existing line. A new product is appended at the end with quantity 1. One-line-per-id and positive quantities are preserved. |
| Cart.DecreaseQuantity | frontend/src/CartContext.jsx:34-40 | On a well-formed cart, the line for the id loses one unit only when it has more than one. The cart keeps its length and order, and stays well-formed. |
| Cart.RemoveFromCart | frontend/src/CartContext.jsx:42-44 | No line for the id remains, and every other line is kept. The result is well-formed when the input was. |
| Cart.ClearCart | frontend/src/CartContext.jsx:47-49 | The cart becomes empty. |
| Cart.WellFormedAtMostOneLine | frontend/src/CartContext.jsx:12-24 | A well-formed cart has at most one line per product id. |
| Cart.AddToCartCounts | frontend/src/CartContext.jsx:12-24 | Adding a product raises its cart quantity by one and leaves it with exactly one line. Other products' quantities and line counts do not change. |
| Cart.AddTwiceMakesOneLine | frontend/src/CartContext.jsx:12-24 | Adding a new product twice gives one line with quantity 2 at the end. |
| Cart.DecreaseAtOneKeepsLine | frontend/src/CartContext.jsx:37-38 | Decreasing a line at quantity 1 leaves the cart unchanged. |
| Cart.RemoveDropsTheLine | frontend/src/CartContext.jsx:42-44 | Removing the id of line i gives the cart with exactly that line cut out, the rest in order. |
| Cart.AddToCartTotal | frontend/src/ShoppingCartPage.jsx:7 | Adding a product raises the displayed total by one unit of its price. For a new product this is the product's price; for an existing line it is the cached price on that line. |
| Cart.IncreaseTotal | frontend/src/ShoppingCartPage.jsx:7 | Increasing a line raises the displayed total by that line's price. |
| Checkout.OrderPayload | frontend/src/ShoppingCartPage.jsx:15-17 | The payload lists each cart line's id and quantity, in cart order, and no price. |
| Checkout.HandleCheckout | frontend/src/ShoppingCartPage.jsx:9-26 | An empty cart sends nothing and stays as it is. Otherwise the payload is sent; success empties the cart and failure keeps it exactly. |
| Checkout.CheckoutWithServer | frontend/src/ShoppingCartPage.jsx:9-26 | The cart and store together either both stay unchanged or the cart is emptied. |
| Checkout.PayloadTotal | frontend/src/ShoppingCartPage.jsx:7 | When the cart's cached prices match the server's, the server's order total equals the displayed total. |
| Checkout.PayloadQuantities | frontend/src/ShoppingCartPage.jsx:15-17 | The payload orders of each product exactly the quantity the cart holds. |
| Checkout.CheckoutRoundTrip | frontend/src/ShoppingCartPage.jsx:9-26 | A refused order leaves the store and the cart unchanged. An accepted one empties the cart and lowers each product's stock by the cart's quantity of it; with current prices it records the displayed total. |
| SubscriptionEditor.OpenForm | frontend/src/SubscriptionModal.jsx:7-36 | A new contract starts monthly and active, with no items and quantity 1. The first product is preselected when there is one. |
| SubscriptionEditor.FindProduct | frontend/src/SubscriptionModal.jsx:51 | The lookup finds a product with the given id exactly when the catalogue has one. |
| SubscriptionEditor.AddItem | frontend/src/SubscriptionModal.jsx:46-57 | The add is refused, leaving the list unchanged, when nothing is selected or the product is already listed. Otherwise, when the product is in the catalogue, exactly one entry with its id, name and the chosen quantity is appended. The list never gains a duplicate. |
| SubscriptionEditor.RemoveItem | frontend/src/SubscriptionModal.jsx:59-61 | No entry for the product remains, every other entry is kept, and nothing new appears. |
| SubscriptionEditor.RemoveKeepsNoDuplicates | frontend/src/SubscriptionModal.jsx:59-61 | Removing entries from a list without duplicates leaves a list without duplicates. |
| SubscriptionEditor.RemoveDropsTheEntry | frontend/src/SubscriptionModal.jsx:59-61 | On a list without duplicates, removing the product of entry i gives the list with exactly that entry cut out and every other entry in its original order. |
| SubscriptionEditor.ContractItems | frontend/src/SubscriptionModal.jsx:77 | The submitted items are the entries' product ids and quantities, in order, with the name dropped. |
| SubscriptionEditor.Submit | frontend/src/SubscriptionModal.jsx:63-87 | Nothing is sent if and only if the item list is empty. Otherwise the contract carries the form's fields and the projected items. |
| SubscriptionEditor.EditsKeepNoDuplicates | frontend/src/SubscriptionModal.jsx:46-61 | No sequence of adds and removes puts two entries for one product in the list. |
| SubscriptionEditor.SubmittedItemsAreDistinct | frontend/src/SubscriptionModal.jsx:46-87 | Whatever the user edits after opening the form, a submitted contract never lists a product twice. |
| SubscriptionEditor.RemoveUndoesAdd | frontend/src/SubscriptionModal.jsx:46-61 | Removing the product just added restores the previous list. |
| SubscriptionEditor.AddSameProductTwiceRefused | frontend/src/SubscriptionModal.jsx:47-50 | A product just added cannot be added again. |
| JsLookup.Lookup | frontend/src/OrderDetailPage.jsx:14 | Indexing an object literal finds its own entry if there is one, else an inherited `Object.prototype` member of that name, else nothing. |
| JsLookup.OrElse | frontend/src/OrderDetailPage.jsx:14 | With truthy table values, `found \|\| fallback` yields an own entry or an inherited member when one is found. Only when nothing is found does it yield the fallback. |
| OrderDetail.StatusBadge | frontend/src/OrderDetailPage.jsx:7-16 | `paid`, `shipped`, `delivered` and `cancelled` show 新規受付/yellow, 発送準備中/blue, 完了/green and キャンセル/gray. Any other status shows its own text in gray. |
| OrderDetail.StatusBadgeAsWritten | frontend/src/OrderDetailPage.jsx:8-15 | As written, an inherited member name renders with no text and no colour. Every other status renders as intended. |
| OrderDetail.AsWrittenDiffersExactlyOnPrototypeNames | frontend/src/OrderDetailPage.jsx:14 | The page as written and as intended differ exactly on the twelve inherited member names. |
| OrderDetail.ConstructorStatusLosesItsLabel | frontend/src/OrderDetailPage.jsx:14 | The status `constructor` renders no label as written, where gray `constructor` was intended. |
| OrderDetail.CreatedOrderShowsNewOrderBadge | frontend/src/OrderDetailPage.jsx:9 | Every bean order the store creates shows 新規受付 in yellow. |
| OrderDetail.LineSubtotal | frontend/src/OrderDetailPage.jsx:86 | A line's subtotal is its unit price times its quantity. It is zero for no units, the unit price for one unit, and non-negative for non-negative inputs. |
| OrderDetail.SubtotalsAddUpToOrderTotal | frontend/src/OrderDetailPage.jsx:86 | With the prices the products had when the order was placed, the subtotal column adds up to the total the store recorded. |
| OrderDetail.OrPlaceholder | frontend/src/OrderDetailPage.jsx:81-82 | A missing or empty field shows its placeholder; any other value shows as is. |
| SubscriptionBadges.StatusBadge | frontend/src/SubscriptionPage.jsx:5-21 | `active`, `paused`, `cancelled` and `payment_failed` show アクティブ/green, 一時停止中/yellow, 解約済/gray and 決済失敗中/red. Any other status shows its own text in gray. |
| SubscriptionBadges.TablesAgreeOnStatuses | frontend/src/SubscriptionPage.jsx:6-19 | The colour and text tables list the same statuses, so a status gets both fallbacks or neither. |
| SubscriptionBadges.ListedStatusShowsTranslation | frontend/src/SubscriptionPage.jsx:12-17 | A listed status never shows its raw key. |
| SubscriptionBadges.StatusBadgeAsWritten | frontend/src/SubscriptionPage.jsx:18-19 | As written, an inherited member name yields that member as both colour and text. Every other status renders as intended. |
| SubscriptionBadges.AsWrittenTotalExceptPrototypeNames | frontend/src/SubscriptionPage.jsx:18-20 | The as-written mapping yields a colour and a text for a status if and only if the status is not an inherited member name. |
| SubscriptionBadges.ToStringStatusMisrendered | frontend/src/SubscriptionPage.jsx:18 | The status `toString` gets the inherited method as its colour, where gray was intended. |

## Left out

- Login, password hashing and JWT tokens (backend/main.py:167-237, 273-297, backend/hash_util.py) are left out because they are cryptography and foreign libraries. The caller is a given `Principal`.
- The user endpoints (`/users`, `/users/me`) and the admin listing endpoints (`/admin/all_inventory`, `/admin/all_orders`, `/products`) are left out as outside the modelled core. This drops the one rule among them: registration refuses an e-mail already in use with 400 (backend/main.py:256-260).
- `update_bean_order_status` and the second `/orders/me` are left out because they call `load_data`/`save_data`, which the back end does not define.
- Database sessions, the engine, CORS, startup seeding and `with_for_update` row locks are left out. Each request is one atomic transition, so concurrency is not modelled.
- The clock (`datetime.now`) is a `today` parameter.
- HTTP plumbing of the front end (`api.js`), toasts, rendering and the other pages are left out. That includes `App.jsx`, the order form, login and registration, profile, order history, product pages and the admin dashboard.
- The `/admin/bean_orders/{id}` endpoint that feeds the order-detail page is not in the back end. The page's order JSON is an input, and the action-history list on that page is not modelled.
- Action-history logs, enforced status transitions, a sorted combined admin feed and subscription renewal scheduling are left out because the code does not implement them.
- Products.UpdateProduct: a field sent as explicit JSON `null` is not modelled. The source would write `NULL` into the column. The model has only absent or present-with-a-value.
- Migration.Migrate: YAML records with missing or unknown keys are not modelled, except a missing item `quantity`; an explicit null item `quantity`, which the source stores in the nullable column, is not modelled either. The source would raise on them and roll back. A non-string product id is also not modelled, and every YAML user carries its `id`.
- Migration.Migrate: the YAML content is a parameter. Reading the file (backend/migrate.py:23-33) and the early return when that read fails are not modelled. The script imports `load_data` from backend/main.py (backend/migrate.py:4-13), and that file does not define it, so as the two files stand the import fails before the migration runs; the model describes the migration the script would perform once `load_data` exists.
- Migration.Migrate: when several errors occur in one run, the model reports a missing quantity first and then the duplicate keys in collection order; which IntegrityError the database reports first among the flushed rows is not modelled. Every error rolls back the same way.
- Integer widths are not modelled. Quantities, prices and stock are unbounded integers here, whereas the database uses 64-bit columns and the front end uses IEEE doubles.
- The `parseInt` parsing of browser input (quantity, customer id) is not modelled. Both arrive parsed.
- SubscriptionEditor.AddItem: when the selected product is missing from the catalogue, the source throws inside the click handler. The model keeps the list unchanged, which is what the user sees, and does not model the exception.
- The status values the admin dashboard offers (frontend/src/AdminDashboard.jsx:165-169, 192-196) are not enforced by the server. The model therefore allows any string as a status.

## Findings

| source | as written | input that shows it | evidently intended | confidence | as-written member | corrected member |
|---|---|---|---|---|---|---|
| frontend/src/OrderDetailPage.jsx:14 | `statusMap[status] \|\| {...}` also finds members inherited from `Object.prototype`. For those names the badge has neither text nor colour. | A bean order whose status is `constructor`. Nothing in the back end checks a bean-order status; such a status reaches the page only through stored or migrated data, since the bean-order status endpoint calls an undefined `load_data`. | Any status that is not one of the four listed shows its raw text in gray. | medium, not executed | OrderDetail.StatusBadgeAsWritten, OrderDetail.ConstructorStatusLosesItsLabel | OrderDetail.StatusBadge |
| frontend/src/SubscriptionPage.jsx:18-19 | `statusMap[status] \|\| 'gray'` and `statusTextMap[status] \|\| status` return the inherited member for those names: a function for eleven of them, and `Object.prototype` itself for `__proto__`. A function becomes the colour class and the label; for `__proto__` the label is a plain object, which React refuses to render as a child. | A subscription whose status is `toString` | An unknown status shows its raw text in gray; the mapping is total. | low, not executed | SubscriptionBadges.StatusBadgeAsWritten, SubscriptionBadges.ToStringStatusMisrendered | SubscriptionBadges.StatusBadge |

=== FILE: admin_route.dfy ===
/**
 The client-side guard in front of the admin pages (src/AdminProtectedRoute.jsx): wait while
 the current user is not known, send a non-admin back to the store, render the page otherwise.
 */
module AdminRoute {
  import opened Wrappers
  import opened Store
  import Auth

  const LoadingMessage: string := "ユーザー情報を確認中..."
  const StorePath: string := "/store"

  /** What the route renders. */
  datatype RouteOutcome<+C> = Loading(message: string) | Redirect(to: string, replace: bool) | Render(children: C)

  /** The guard; `currentUser` is `None` until the user record has been loaded. */
  function Guard<C>(currentUser: Option<Principal>, children: C): (r: RouteOutcome<C>)
    ensures currentUser.None? <==> r == Loading(LoadingMessage)
    ensures currentUser.Some? && currentUser.value.role != "admin" <==> r == Redirect(StorePath, true)
    ensures r.Render? ==> r.children == children
  {
    match currentUser
    case None => Loading(LoadingMessage)
    case Some(user) => if user.role != Auth.AdminRole then Redirect(StorePath, true) else Render(children)
  }

  /** The page is rendered exactly for a loaded user whose role is `admin`. */
  lemma RendersIffAdmin<C>(currentUser: Option<Principal>, children: C)
    ensures Guard(currentUser, children).Render? <==> currentUser.Some? && currentUser.value.role == "admin"
  {
  }

  /** The client guard lets through exactly the users the server's admin check accepts. */
  lemma AgreesWithServerGuard<C>(user: Principal, children: C)
    ensures Guard(Some(user), children).Render? <==> Auth.RequireAdmin(user).Ok?
  {
  }
}

=== FILE: auth.dfy ===
/**
 The admin capability check that guards every `/admin/...` endpoint. Token decoding and
 password checks are outside the model: the caller arrives as an already-resolved Principal.
 */
module Auth {
  import opened Wrappers
  import opened Store

  /** The only role string that grants admin capability; the comparison is exact. */
  const AdminRole: string := "admin"

  /** Passes the caller through when their role is exactly "admin", otherwise fails with 403. */
  function RequireAdmin(user: Principal): (r: Result<Principal, HttpError>)
    ensures r.Ok? <==> user.role == AdminRole
    ensures r.Ok? ==> r.value == user
    ensures r.Err? ==> r.error == Forbidden && r.error.Code() == 403
  {
    if user.role != AdminRole then Err(Forbidden) else Ok(user)
  }
}

=== FILE: bean_orders.dfy ===
/**
 Retail ("bean") order creation, `POST /bean_orders` (backend/main.py:408-483).

 The endpoint walks the submitted items in order. For each item it looks the product up in
 the session, fails with 400 when the product is missing or its current stock is below the
 requested quantity, adds `price * quantity` to the total and lowers the product's stock in
 memory, so a product listed twice is checked against the already lowered stock. Any failure
 rolls the whole transaction back.
 */
module BeanOrders {
  import opened Wrappers
  import opened Store
  import OrderIds

  /** One line of the request body: a product id and an (unchecked) quantity. */
  datatype CartItem = CartItem(id: string, quantity: int)

  /** The request body of `POST /bean_orders`. */
  datatype BeanOrderRequest = BeanOrderRequest(items: seq<CartItem>, shippingAddress: string)

  /** The placeholder address used when the request does not carry one (backend/main.py:82). */
  const DefaultShippingAddress: string := "（テスト用の住所）"

  /** The state of the stock walk: the products table as lowered so far and the running total. */
  datatype Reservation = Reservation(products: map<string, Product>, total: int)

  /** What a successful call returns: the stored order header and the items echoed back. */
  datatype CreatedBeanOrder = CreatedBeanOrder(order: BeanOrder, items: seq<CartItem>)

  /** Total quantity requested for product `id` across `items`. */
  function QuantityOf(items: seq<CartItem>, id: string): int {
    if |items| == 0 then 0
    else (if items[0].id == id then items[0].quantity else 0) + QuantityOf(items[1..], id)
  }

  predicate AllKnown(products: map<string, Product>, items: seq<CartItem>) {
    forall i | 0 <= i < |items| :: items[i].id in products
  }

  /** Reference total: every item priced at its product's price in `products`. */
  function PriceTotal(products: map<string, Product>, items: seq<CartItem>): int
    requires AllKnown(products, items)
  {
    if |items| == 0 then 0
    else products[items[0].id].price * items[0].quantity + PriceTotal(products, items[1..])
  }

  /**
   The sequential stock check the endpoint performs: item `i` is accepted when its product
   exists and the product's stock, lowered by the quantities of the earlier items for the same
   product, still covers the quantity.
   */
  ghost predicate Feasible(products: map<string, Product>, items: seq<CartItem>) {
    forall i | 0 <= i < |items| ::
      items[i].id in products
      && products[items[i].id].stock - QuantityOf(items[..i], items[i].id) >= items[i].quantity
  }

  /** `m2` is `m1` with, at most, different stock values. */
  ghost predicate SameButStock(m1: map<string, Product>, m2: map<string, Product>) {
    m1.Keys == m2.Keys
    && forall k | k in m1 :: m2[k] == m1[k].(stock := m2[k].stock)
  }

  /**
   The loop of backend/main.py:425-434: check, price and reserve each item in turn. On
   success every product's stock is lowered by exactly the total quantity ordered for it, no
   other field of any product changes, and the total is the sum of server-side prices times
   quantities (non-negative stock is `ReserveKeepsStockNonNegative`).
   */
  function Reserve(products: map<string, Product>, items: seq<CartItem>): (r: Result<Reservation, HttpError>)
    ensures r.Err? ==> r.error == BadRequest
    ensures r.Ok? ==> AllKnown(products, items)
    ensures r.Ok? ==> SameButStock(products, r.value.products)
    ensures r.Ok? ==> forall k | k in products ::
      r.value.products[k].stock == products[k].stock - QuantityOf(items, k)
    ensures r.Ok? ==> r.value.total == PriceTotal(products, items)
    decreases |items|
  {
    if |items| == 0 then Ok(Reservation(products, 0))
    else
      var item := items[0];
      if item.id !in products || products[item.id].stock < item.quantity then Err(BadRequest)
      else
        var p := products[item.id];
        var lowered := products[item.id := p.(stock := p.stock - item.quantity)];
        match Reserve(lowered, items[1..])
        case Err(e) => Err(e)
        case Ok(rest) =>
          PriceTotalFrame(products, lowered, items[1..]);
          Ok(Reservation(rest.products, p.price * item.quantity + rest.total))
  }

  /** A successful reservation leaves every ordered product with non-negative stock. */
  lemma {:induction false} ReserveKeepsStockNonNegative(products: map<string, Product>, items: seq<CartItem>)
    requires Reserve(products, items).Ok?
    ensures forall item | item in items :: Reserve(products, items).value.products[item.id].stock >= 0
    decreases |items|
  {
    if |items| > 0 {
      var item := items[0];
      var p := products[item.id];
      var lowered := products[item.id := p.(stock := p.stock - item.quantity)];
      var rest := Reserve(lowered, items[1..]).value;
      ReserveKeepsStockNonNegative(lowered, items[1..]);
      assert Reserve(products, items).value.products == rest.products;
      forall x | x in items ensures rest.products[x.id].stock >= 0 {
        if x !in items[1..] {
          if y :| y in items[1..] && y.id == x.id {
            assert rest.products[y.id].stock >= 0;
          } else {
            assert x == item;
            QuantityOfAbsent(items[1..], item.id);
          }
        }
      }
    }
  }

  /** Lowering stock does not change the price total. */
  lemma {:induction false} PriceTotalFrame(m1: map<string, Product>, m2: map<string, Product>, items: seq<CartItem>)
    requires AllKnown(m1, items) && SameButStock(m1, m2)
    ensures AllKnown(m2, items) && PriceTotal(m2, items) == PriceTotal(m1, items)
    decreases |items|
  {
    if |items| > 0 {
      PriceTotalFrame(m1, m2, items[1..]);
    }
  }

  /** A product that no item names receives no quantity; one that is named is in the list. */
  lemma {:induction false} QuantityOfAbsent(items: seq<CartItem>, id: string)
    ensures (forall i | 0 <= i < |items| :: items[i].id != id) ==> QuantityOf(items, id) == 0
    decreases |items|
  {
    if |items| > 0 {
      QuantityOfAbsent(items[1..], id);
    }
  }

  /** One step of the walk: the rest of the list is checked against the lowered stock. */
  lemma FeasibleStep(products: map<string, Product>, items: seq<CartItem>)
    requires |items| > 0
    requires items[0].id in products && products[items[0].id].stock >= items[0].quantity
    ensures var p := products[items[0].id];
      var lowered := products[items[0].id := p.(stock := p.stock - items[0].quantity)];
      Feasible(products, items) <==> Feasible(lowered, items[1..])
  {
    var p := products[items[0].id];
    var lowered := products[items[0].id := p.(stock := p.stock - items[0].quantity)];
    var rest := items[1..];
    forall i | 1 <= i < |items|
      ensures items[i].id in products <==> rest[i - 1].id in lowered
      ensures items[i].id in products ==>
        products[items[i].id].stock - QuantityOf(items[..i], items[i].id)
        == lowered[rest[i - 1].id].stock - QuantityOf(rest[..i - 1], rest[i - 1].id)
    {
      assert items[..i] == [items[0]] + rest[..i - 1];
      assert items[..i][1..] == rest[..i - 1];
    }
    assert items[..0] == [];
    if Feasible(lowered, rest) {
      forall i | 0 <= i < |items|
        ensures items[i].id in products
          && products[items[i].id].stock - QuantityOf(items[..i], items[i].id) >= items[i].quantity
      {
        if i > 0 {
          assert rest[i - 1] == items[i];
        }
      }
    }
    if Feasible(products, items) {
      forall j | 0 <= j < |rest|
        ensures rest[j].id in lowered
          && lowered[rest[j].id].stock - QuantityOf(rest[..j], rest[j].id) >= rest[j].quantity
      {
        assert items[j + 1] == rest[j];
      }
    }
  }

  /** The walk succeeds exactly when every item passes the sequential stock check. */
  lemma {:induction false} ReserveSucceedsIffFeasible(products: map<string, Product>, items: seq<CartItem>)
    ensures Reserve(products, items).Ok? <==> Feasible(products, items)
    decreases |items|
  {
    if |items| > 0 {
      var item := items[0];
      if item.id in products && products[item.id].stock >= item.quantity {
        var p := products[item.id];
        var lowered := products[item.id := p.(stock := p.stock - item.quantity)];
        assert Reserve(products, items).Ok? <==> Reserve(lowered, items[1..]).Ok?;
        FeasibleStep(products, items);
        ReserveSucceedsIffFeasible(lowered, items[1..]);
      } else {
        assert Reserve(products, items).Err?;
        assert !Feasible(products, items) by {
          assert items[..0] == [];
          assert QuantityOf(items[..0], item.id) == 0;
        }
      }
    }
  }


  /**
   `POST /bean_orders`. The new id is derived from the current number of orders; the order is
   stored with status "paid", the server-side total, and one item row per submitted item. A
   stock failure answers 400, an id that already exists fails at commit (500); both leave the
   database exactly as it was.
   */
  function CreateBeanOrder(db: Db, user: Principal, request: BeanOrderRequest, today: string)
    : (r: Reply<CreatedBeanOrder>)
    ensures r.outcome.Err? ==> r.db == db
    ensures r.outcome.Err? ==> r.outcome.error in {BadRequest, InternalError}
    ensures Reserve(db.products, request.items).Err? ==> r.outcome == Err(BadRequest)
    // The request succeeds exactly when the stock walk succeeds and the derived id is new;
    // when the walk succeeds but the id is taken, the commit fails with 500.
    ensures r.outcome.Ok? <==>
      Reserve(db.products, request.items).Ok? && OrderIds.FormatBeanOrderId(|db.beanOrders|) !in db.beanOrders
    ensures r.outcome == Err(InternalError) <==>
      Reserve(db.products, request.items).Ok? && OrderIds.FormatBeanOrderId(|db.beanOrders|) in db.beanOrders
    ensures r.outcome.Ok? ==>
      var order := r.outcome.value.order;
      && order.orderId !in db.beanOrders
      && order.orderId == OrderIds.FormatBeanOrderId(|db.beanOrders|)
      && order.status == "paid"
      && order.userId == user.id
      && order.date == today
      && order.shippingAddress == request.shippingAddress
      && AllKnown(db.products, request.items)
      && order.totalPrice == PriceTotal(db.products, request.items)
      && r.outcome.value.items == request.items
      && r.db.beanOrders == db.beanOrders[order.orderId := order]
      && SameButStock(db.products, r.db.products)
      && (forall k | k in db.products ::
            r.db.products[k].stock == db.products[k].stock - QuantityOf(request.items, k))
      && |r.db.beanOrderItems| == |db.beanOrderItems| + |request.items|
      && r.db.beanOrderItems[..|db.beanOrderItems|] == db.beanOrderItems
      && (forall i | 0 <= i < |request.items| ::
            r.db.beanOrderItems[|db.beanOrderItems| + i]
            == BeanOrderItem(order.orderId, request.items[i].id, request.items[i].quantity))
      && r.db.(products := db.products, beanOrders := db.beanOrders, beanOrderItems := db.beanOrderItems) == db
  {
    var orderId := OrderIds.FormatBeanOrderId(|db.beanOrders|);
    match Reserve(db.products, request.items)
    case Err(e) => Reply(db, Err(e))
    case Ok(reservation) =>
      if orderId in db.beanOrders then Reply(db, Err(InternalError))
      else
        var order := BeanOrder(orderId, user.id, today, reservation.total, request.shippingAddress, "paid");
        var rows := seq(|request.items|, i requires 0 <= i < |request.items| =>
          BeanOrderItem(orderId, request.items[i].id, request.items[i].quantity));
        var items := db.beanOrderItems + rows;
        assert items[..|db.beanOrderItems|] == db.beanOrderItems;
        assert forall i | 0 <= i < |rows| :: items[|db.beanOrderItems| + i] == rows[i];
        var db' := db.(products := reservation.products,
                       beanOrders := db.beanOrders[orderId := order],
                       beanOrderItems := items);
        Reply(db', Ok(CreatedBeanOrder(order, request.items)))
  }

  /** Listing the same product twice checks the second line against the lowered stock. */
  lemma RepeatedProductSharesStock(products: map<string, Product>, id: string, a: int, b: int)
    requires id in products && 0 <= a && 0 <= b
    ensures Reserve(products, [CartItem(id, a), CartItem(id, b)]).Ok? <==> products[id].stock >= a + b
  {
    var items := [CartItem(id, a), CartItem(id, b)];
    ReserveSucceedsIffFeasible(products, items);
    assert items[..1] == [CartItem(id, a)];
    assert QuantityOf(items[..1], id) == a;
    assert items[..0] == [];
  }
}

=== FILE: cart.dfy ===
/**
 The client-side shopping cart of frontend/src/CartContext.jsx: an insertion-ordered list of
 lines, each a product (as fetched from the catalogue, price included) with a quantity. Every
 reducer is a pure function from the previous list to the next one.
 */
module Cart {
  import opened Store

  /** A cart line: the product object spread into the line, plus its quantity. */
  datatype Line = Line(product: Product, quantity: int)
  {
    function Id(): string {
      product.id
    }
  }

  /** Whether some line carries product `id` (the `find` of `addToCart`). */
  predicate Contains(cart: seq<Line>, id: string) {
    exists i | 0 <= i < |cart| :: cart[i].Id() == id
  }

  /** The cart invariant: at most one line per product id, and every quantity at least 1. */
  predicate WellFormed(cart: seq<Line>) {
    && (forall i, j | 0 <= i < j < |cart| :: cart[i].Id() != cart[j].Id())
    && (forall i | 0 <= i < |cart| :: cart[i].quantity >= 1)
  }

  /** In a well-formed cart the first line's product has no other line. */
  lemma HeadIsUnique(cart: seq<Line>)
    requires WellFormed(cart) && |cart| > 0
    ensures !Contains(cart[1..], cart[0].Id())
    ensures forall l | l in cart[1..] :: l.Id() != cart[0].Id()
    ensures WellFormed(cart[1..])
  {
    forall l | l in cart[1..] ensures l.Id() != cart[0].Id() {
      var k :| 0 <= k < |cart[1..]| && cart[1..][k] == l;
      assert cart[k + 1] == l;
    }
  }

  /** Number of lines for product `id`. */
  function LineCount(cart: seq<Line>, id: string): nat {
    if |cart| == 0 then 0 else (if cart[0].Id() == id then 1 else 0) + LineCount(cart[1..], id)
  }

  /** Total quantity of product `id` in the cart. */
  function QuantityFor(cart: seq<Line>, id: string): int {
    if |cart| == 0 then 0
    else (if cart[0].Id() == id then cart[0].quantity else 0) + QuantityFor(cart[1..], id)
  }

  /** The displayed total (frontend/src/ShoppingCartPage.jsx:7): each line's cached price times its quantity. */
  function TotalPrice(cart: seq<Line>): int {
    if |cart| == 0 then 0 else cart[0].product.price * cart[0].quantity + TotalPrice(cart[1..])
  }

  /** The lines of `cart` whose id differs from `id`, in their original order. */
  function Without(cart: seq<Line>, id: string): (r: seq<Line>)
    ensures forall l | l in r :: l in cart && l.Id() != id
    ensures forall l | l in cart && l.Id() != id :: l in r
    decreases |cart|
  {
    if |cart| == 0 then []
    else
      var rest := Without(cart[1..], id);
      assert forall l | l in cart[1..] :: l in cart;
      if cart[0].Id() == id then rest else [cart[0]] + rest
  }

  /** Filtering a well-formed cart keeps it well-formed. */
  lemma {:induction false} WithoutKeepsWellFormed(cart: seq<Line>, id: string)
    requires WellFormed(cart)
    ensures WellFormed(Without(cart, id))
    decreases |cart|
  {
    if |cart| > 0 {
      HeadIsUnique(cart);
      WithoutKeepsWellFormed(cart[1..], id);
      if cart[0].Id() != id {
        ConsKeepsWellFormed(cart[0], Without(cart[1..], id));
      }
    }
  }

  /** Putting a line in front of a well-formed cart that lacks its product keeps it well-formed. */
  lemma ConsKeepsWellFormed(head: Line, rest: seq<Line>)
    requires WellFormed(rest) && head.quantity >= 1
    requires forall l | l in rest :: l.Id() != head.Id()
    ensures WellFormed([head] + rest)
  {
    var r := [head] + rest;
    forall i, j | 0 <= i < j < |r| ensures r[i].Id() != r[j].Id() {
      assert r[j] == rest[j - 1];
      if i > 0 {
        assert r[i] == rest[i - 1];
      }
    }
  }

  /** The lines whose quantity is positive, in order (the `filter` of `decreaseQuantity`). */
  function Positive(cart: seq<Line>): (r: seq<Line>)
    ensures |r| <= |cart|
    ensures forall l | l in r :: l in cart && l.quantity > 0
    ensures (forall i | 0 <= i < |cart| :: cart[i].quantity > 0) ==> r == cart
    decreases |cart|
  {
    if |cart| == 0 then []
    else if cart[0].quantity > 0 then [cart[0]] + Positive(cart[1..])
    else Positive(cart[1..])
  }

  /** `line` with one more unit when it carries product `id`. */
  function Bumped(line: Line, id: string): Line {
    if line.Id() == id then line.(quantity := line.quantity + 1) else line
  }

  /** `line` with one unit less when it carries product `id` and has more than one unit. */
  function Lowered(line: Line, id: string): Line {
    if line.Id() == id && line.quantity > 1 then line.(quantity := line.quantity - 1) else line
  }

  /**
   `increaseQuantity` (frontend/src/CartContext.jsx:26-32): the line for `id` gains one unit;
   every other line, and the order of lines, stays as it was; an absent id changes nothing.
   */
  function IncreaseQuantity(cart: seq<Line>, id: string): (r: seq<Line>)
    ensures |r| == |cart|
    ensures forall i | 0 <= i < |cart| ::
      r[i].product == cart[i].product
      && r[i].quantity == (if cart[i].Id() == id then cart[i].quantity + 1 else cart[i].quantity)
    ensures !Contains(cart, id) ==> r == cart
    ensures WellFormed(cart) ==> WellFormed(r)
  {
    seq(|cart|, i requires 0 <= i < |cart| => Bumped(cart[i], id))
  }

  /**
   `addToCart` (frontend/src/CartContext.jsx:12-24): a product already in the cart gains one
   unit on its existing line (the line keeps its cached product data); a new product is
   appended at the end with quantity 1.
   */
  function AddToCart(cart: seq<Line>, product: Product): (r: seq<Line>)
    ensures Contains(cart, product.id) ==> r == IncreaseQuantity(cart, product.id)
    ensures !Contains(cart, product.id) ==> r == cart + [Line(product, 1)]
    ensures WellFormed(cart) ==> WellFormed(r)
  {
    if Contains(cart, product.id) then IncreaseQuantity(cart, product.id)
    else
      var r := cart + [Line(product, 1)];
      assert WellFormed(cart) ==> WellFormed(r) by {
        if WellFormed(cart) {
          forall i | 0 <= i < |cart| ensures r[i].Id() != r[|cart|].Id() {
            assert cart[i].Id() != product.id;
          }
        }
      }
      r
  }

  /**
   `decreaseQuantity` (frontend/src/CartContext.jsx:34-40): the line for `id` loses one unit
   only while it has more than one; a line at quantity 1 stays at 1 and is not removed. The
   trailing filter drops non-positive lines, which a well-formed cart never has.
   */
  function DecreaseQuantity(cart: seq<Line>, id: string): (r: seq<Line>)
    ensures WellFormed(cart) ==> |r| == |cart| && forall i | 0 <= i < |cart| ::
      r[i].product == cart[i].product
      && r[i].quantity == (if cart[i].Id() == id && cart[i].quantity > 1 then cart[i].quantity - 1
                           else cart[i].quantity)
    ensures WellFormed(cart) ==> WellFormed(r)
  {
    Positive(seq(|cart|, i requires 0 <= i < |cart| => Lowered(cart[i], id)))
  }

  /**
   `removeFromCart` (frontend/src/CartContext.jsx:42-44): drops every line for `id` and keeps
   the others in their original order.
   */
  function RemoveFromCart(cart: seq<Line>, id: string): (r: seq<Line>)
    ensures !Contains(r, id)
    ensures forall l | l in cart && l.Id() != id :: l in r
    ensures forall l | l in r :: l in cart
    ensures WellFormed(cart) ==> WellFormed(r)
  {
    assert WellFormed(cart) ==> WellFormed(Without(cart, id)) by {
      if WellFormed(cart) {
        WithoutKeepsWellFormed(cart, id);
      }
    }
    Without(cart, id)
  }

  /** `clearCart` (frontend/src/CartContext.jsx:47-49). */
  function ClearCart(): (r: seq<Line>)
    ensures |r| == 0 && WellFormed(r)
  {
    []
  }

  // ---------------------------------------------------------------------------------------
  // Properties relating the reducers to the per-product counts and the total.

  lemma {:induction false} LineCountContains(cart: seq<Line>, id: string)
    ensures LineCount(cart, id) > 0 <==> Contains(cart, id)
    decreases |cart|
  {
    if |cart| > 0 {
      LineCountContains(cart[1..], id);
      if Contains(cart, id) && cart[0].Id() != id {
        var i :| 0 <= i < |cart| && cart[i].Id() == id;
        assert cart[1..][i - 1].Id() == id;
      }
      if Contains(cart[1..], id) {
        var i :| 0 <= i < |cart[1..]| && cart[1..][i].Id() == id;
        assert cart[i + 1].Id() == id;
      }
    }
  }

  /** In a well-formed cart every product has at most one line. */
  lemma {:induction false} WellFormedAtMostOneLine(cart: seq<Line>, id: string)
    requires WellFormed(cart)
    ensures LineCount(cart, id) <= 1
    decreases |cart|
  {
    if |cart| > 0 {
      HeadIsUnique(cart);
      WellFormedAtMostOneLine(cart[1..], id);
      if cart[0].Id() == id {
        LineCountContains(cart[1..], id);
      }
    }
  }

  /** Increasing adds one unit per line of the product to its quantity and to no other product. */
  lemma {:induction false} IncreaseQuantityCounts(cart: seq<Line>, id: string, k: string)
    ensures QuantityFor(IncreaseQuantity(cart, id), k)
      == QuantityFor(cart, k) + (if k == id then LineCount(cart, id) else 0)
    ensures LineCount(IncreaseQuantity(cart, id), k) == LineCount(cart, k)
    decreases |cart|
  {
    if |cart| > 0 {
      assert IncreaseQuantity(cart, id)[1..] == IncreaseQuantity(cart[1..], id);
      IncreaseQuantityCounts(cart[1..], id, k);
    }
  }

  lemma {:induction false} AppendCounts(cart: seq<Line>, line: Line, k: string)
    ensures QuantityFor(cart + [line], k) == QuantityFor(cart, k) + (if line.Id() == k then line.quantity else 0)
    ensures LineCount(cart + [line], k) == LineCount(cart, k) + (if line.Id() == k then 1 else 0)
    ensures TotalPrice(cart + [line]) == TotalPrice(cart) + line.product.price * line.quantity
    decreases |cart|
  {
    if |cart| == 0 {
      assert [line][1..] == [];
    } else {
      assert (cart + [line])[1..] == cart[1..] + [line];
      AppendCounts(cart[1..], line, k);
    }
  }

  /**
   Adding a product to a well-formed cart raises that product's quantity by exactly one,
   leaves it with exactly one line, and changes no other product.
   */
  lemma AddToCartCounts(cart: seq<Line>, product: Product, k: string)
    requires WellFormed(cart)
    ensures QuantityFor(AddToCart(cart, product), k) == QuantityFor(cart, k) + (if k == product.id then 1 else 0)
    ensures LineCount(AddToCart(cart, product), product.id) == 1
    ensures k != product.id ==> LineCount(AddToCart(cart, product), k) == LineCount(cart, k)
  {
    LineCountContains(cart, product.id);
    WellFormedAtMostOneLine(cart, product.id);
    if Contains(cart, product.id) {
      IncreaseQuantityCounts(cart, product.id, k);
      IncreaseQuantityCounts(cart, product.id, product.id);
    } else {
      AppendCounts(cart, Line(product, 1), k);
      AppendCounts(cart, Line(product, 1), product.id);
    }
  }

  /** Adding the same new product twice gives one line with quantity 2, not two lines. */
  lemma AddTwiceMakesOneLine(cart: seq<Line>, product: Product)
    requires WellFormed(cart) && !Contains(cart, product.id)
    ensures var twice := AddToCart(AddToCart(cart, product), product);
      && |twice| == |cart| + 1
      && twice[|cart|] == Line(product, 2)
      && twice[..|cart|] == cart
  {
    var once := AddToCart(cart, product);
    assert once[|cart|].Id() == product.id;
  }

  /** Decreasing a line that holds a single unit leaves the cart exactly as it was. */
  lemma DecreaseAtOneKeepsLine(cart: seq<Line>, i: nat)
    requires WellFormed(cart) && i < |cart| && cart[i].quantity == 1
    ensures DecreaseQuantity(cart, cart[i].Id()) == cart
  {
  }

  /** Removing a product that has a line in a well-formed cart drops exactly that line. */
  lemma RemoveDropsTheLine(cart: seq<Line>, i: nat)
    requires WellFormed(cart) && i < |cart|
    ensures RemoveFromCart(cart, cart[i].Id()) == cart[..i] + cart[i + 1..]
  {
    assert SoleLine(cart, i);
    WithoutDropsSingleLine(cart, i);
  }

  /** Line `i` is the only line of its product. */
  predicate SoleLine(cart: seq<Line>, i: nat)
    requires i < |cart|
  {
    forall j | 0 <= j < |cart| && j != i :: cart[j].Id() != cart[i].Id()
  }

  /** Filtering out the product of a sole line cuts out just that line. */
  lemma {:induction false} WithoutDropsSingleLine(cart: seq<Line>, i: nat)
    requires i < |cart| && SoleLine(cart, i)
    ensures Without(cart, cart[i].Id()) == cart[..i] + cart[i + 1..]
    decreases |cart|
  {
    if i == 0 {
      WithoutDropsSoleHead(cart);
    } else {
      var tail := cart[1..];
      SoleLineInTail(cart, i);
      WithoutDropsSingleLine(tail, i - 1);
      WithoutSkipsHead(cart, cart[i].Id());
      SpliceAfterHead(cart, i);
    }
  }

  lemma WithoutDropsSoleHead(cart: seq<Line>)
    requires |cart| > 0 && SoleLine(cart, 0)
    ensures Without(cart, cart[0].Id()) == cart[1..]
  {
    var tail := cart[1..];
    assert !Contains(tail, cart[0].Id()) by {
      forall j | 0 <= j < |tail| ensures tail[j].Id() != cart[0].Id() {
        assert tail[j] == cart[j + 1];
      }
    }
    LineCountContains(tail, cart[0].Id());
    WithoutAbsent(tail, cart[0].Id());
  }

  lemma SoleLineInTail(cart: seq<Line>, i: nat)
    requires 0 < i < |cart| && SoleLine(cart, i)
    ensures SoleLine(cart[1..], i - 1) && cart[1..][i - 1] == cart[i]
    ensures cart[0].Id() != cart[i].Id()
  {
    var tail := cart[1..];
    forall j | 0 <= j < |tail| && j != i - 1 ensures tail[j].Id() != tail[i - 1].Id() {
      assert tail[j] == cart[j + 1];
    }
  }

  lemma WithoutSkipsHead(cart: seq<Line>, id: string)
    requires |cart| > 0 && cart[0].Id() != id
    ensures Without(cart, id) == [cart[0]] + Without(cart[1..], id)
  {
  }

  lemma SpliceAfterHead(cart: seq<Line>, i: nat)
    requires 0 < i < |cart|
    ensures cart[..i] + cart[i + 1..] == [cart[0]] + (cart[1..][..i - 1] + cart[1..][i..])
  {
    assert cart[..i] == [cart[0]] + cart[1..][..i - 1];
    assert cart[i + 1..] == cart[1..][i..];
  }

  /** Removing an absent product is a no-op. */
  lemma {:induction false} WithoutAbsent(cart: seq<Line>, id: string)
    requires LineCount(cart, id) == 0
    ensures Without(cart, id) == cart
    decreases |cart|
  {
    if |cart| > 0 {
      WithoutAbsent(cart[1..], id);
    }
  }

  /**
   Adding a product raises the displayed total by one unit's price: the cached price of the
   existing line, or the product's price for a new line.
   */
  lemma AddToCartTotal(cart: seq<Line>, product: Product)
    requires WellFormed(cart)
    ensures !Contains(cart, product.id) ==>
      TotalPrice(AddToCart(cart, product)) == TotalPrice(cart) + product.price
    ensures forall i | 0 <= i < |cart| && cart[i].Id() == product.id ::
      TotalPrice(AddToCart(cart, product)) == TotalPrice(cart) + cart[i].product.price
  {
    var r := AddToCart(cart, product);
    if !Contains(cart, product.id) {
      assert r == cart + [Line(product, 1)];
      AppendCounts(cart, Line(product, 1), product.id);
    } else {
      assert r == IncreaseQuantity(cart, product.id);
      forall i | 0 <= i < |cart| && cart[i].Id() == product.id
        ensures TotalPrice(r) == TotalPrice(cart) + cart[i].product.price
      {
        IncreaseTotal(cart, product.id, i);
      }
    }
  }

  /** Bumping the single line of a product at position `i` adds that line's price to the total. */
  lemma {:induction false} IncreaseTotal(cart: seq<Line>, id: string, i: nat)
    requires WellFormed(cart) && i < |cart| && cart[i].Id() == id
    ensures TotalPrice(IncreaseQuantity(cart, id)) == TotalPrice(cart) + cart[i].product.price
    decreases |cart|
  {
    var r := IncreaseQuantity(cart, id);
    assert r[1..] == IncreaseQuantity(cart[1..], id);
    HeadIsUnique(cart);
    if i == 0 {
      assert IncreaseQuantity(cart[1..], id) == cart[1..];
    } else {
      assert cart[1..][i - 1] == cart[i];
      IncreaseTotal(cart[1..], id, i - 1);
      assert cart[0].Id() != id;
    }
  }
}

=== FILE: checkout.dfy ===
/**
 Checkout from the shopping cart page (frontend/src/ShoppingCartPage.jsx:9-26) and its
 round trip through `POST /bean_orders`. The page sends only ids and quantities; the server
 prices the order from its own catalogue. The network and the server's answer are a
 parameter of the page's handler.
 */
module Checkout {
  import opened Wrappers
  import opened Store
  import opened Cart
  import BeanOrders

  /** The `items` of the request body: each line's id and quantity, in cart order, no price. */
  function OrderPayload(cart: seq<Line>): (items: seq<BeanOrders.CartItem>)
    ensures |items| == |cart|
    ensures forall i | 0 <= i < |cart| :: items[i].id == cart[i].Id() && items[i].quantity == cart[i].quantity
  {
    seq(|cart|, i requires 0 <= i < |cart| => BeanOrders.CartItem(cart[i].Id(), cart[i].quantity))
  }

  /** What the handler does: the request it sends, if any, and the cart it leaves. */
  datatype CheckoutStep = CheckoutStep(sent: Option<seq<BeanOrders.CartItem>>, cart: seq<Line>)

  /**
   `handleCheckout`. An empty cart sends nothing and stays empty. Otherwise the payload is
   sent; the cart is cleared when the order call succeeds and kept exactly as it was when
   it fails, whatever the reason.
   */
  function HandleCheckout(cart: seq<Line>, orderSucceeded: bool): (r: CheckoutStep)
    ensures |cart| == 0 ==> r.sent.None? && r.cart == cart
    ensures |cart| > 0 ==> r.sent == Some(OrderPayload(cart))
    ensures |cart| > 0 && orderSucceeded ==> r.cart == []
    ensures !orderSucceeded ==> r.cart == cart
  {
    if |cart| == 0 then CheckoutStep(None, cart)
    else if orderSucceeded then CheckoutStep(Some(OrderPayload(cart)), ClearCart())
    else CheckoutStep(Some(OrderPayload(cart)), cart)
  }

  /** The end-to-end exchange: the page's handler against the modelled endpoint. */
  function CheckoutWithServer(db: Db, user: Principal, cart: seq<Line>, today: string): (r: (Db, seq<Line>))
    ensures |cart| == 0 ==> r == (db, cart)
    ensures r.1 == [] || r == (db, cart)
  {
    if |cart| == 0 then (db, cart)
    else
      var request := BeanOrders.BeanOrderRequest(OrderPayload(cart), BeanOrders.DefaultShippingAddress);
      var reply := BeanOrders.CreateBeanOrder(db, user, request, today);
      (reply.db, HandleCheckout(cart, reply.outcome.Ok?).cart)
  }

  /** The cart's cached prices agree with the server's catalogue. */
  ghost predicate PricesCurrent(products: map<string, Product>, cart: seq<Line>) {
    forall i | 0 <= i < |cart| :: cart[i].Id() in products && products[cart[i].Id()].price == cart[i].product.price
  }

  /** With current prices, the server's total for the payload is the total the page displays. */
  lemma {:induction false} PayloadTotal(products: map<string, Product>, cart: seq<Line>)
    requires PricesCurrent(products, cart)
    ensures BeanOrders.AllKnown(products, OrderPayload(cart))
    ensures BeanOrders.PriceTotal(products, OrderPayload(cart)) == TotalPrice(cart)
    decreases |cart|
  {
    if |cart| > 0 {
      assert OrderPayload(cart)[1..] == OrderPayload(cart[1..]);
      PayloadTotal(products, cart[1..]);
    }
  }

  /** The payload asks the server for exactly the cart's quantity of each product. */
  lemma {:induction false} PayloadQuantities(cart: seq<Line>, id: string)
    ensures BeanOrders.QuantityOf(OrderPayload(cart), id) == QuantityFor(cart, id)
    decreases |cart|
  {
    if |cart| > 0 {
      assert OrderPayload(cart)[1..] == OrderPayload(cart[1..]);
      PayloadQuantities(cart[1..], id);
    }
  }

  /**
   A successful checkout records the displayed total (when the cart's prices are current),
   lowers each product's stock by the cart's quantity of it, and empties the cart; a refused
   order leaves both the database and the cart unchanged.
   */
  lemma CheckoutRoundTrip(db: Db, user: Principal, cart: seq<Line>, today: string)
    requires |cart| > 0
    ensures var request := BeanOrders.BeanOrderRequest(OrderPayload(cart), BeanOrders.DefaultShippingAddress);
      var reply := BeanOrders.CreateBeanOrder(db, user, request, today);
      var (db', cart') := CheckoutWithServer(db, user, cart, today);
      && (reply.outcome.Err? ==> db' == db && cart' == cart)
      && (reply.outcome.Ok? ==>
            && cart' == []
            && (forall k | k in db.products :: db'.products[k].stock == db.products[k].stock - QuantityFor(cart, k))
            && (PricesCurrent(db.products, cart) ==> reply.outcome.value.order.totalPrice == TotalPrice(cart)))
  {
    var request := BeanOrders.BeanOrderRequest(OrderPayload(cart), BeanOrders.DefaultShippingAddress);
    var reply := BeanOrders.CreateBeanOrder(db, user, request, today);
    if reply.outcome.Ok? {
      forall k | k in db.products
        ensures reply.db.products[k].stock == db.products[k].stock - QuantityFor(cart, k)
      {
        PayloadQuantities(cart, k);
      }
      if PricesCurrent(db.products, cart) {
        PayloadTotal(db.products, cart);
      }
    }
  }
}

=== FILE: delivery.dfy ===
/**
 Delivery orders and the delivery bean inventory (backend/main.py): placing an order
 (`POST /orders`), the admin status update (`PATCH /admin/orders/{id}/status`) and the
 bean availability published by `GET /settings`.
 */
module Delivery {
  import opened Wrappers
  import opened Store
  import Auth
  import OrderIds

  /** The request body of `POST /orders`; `notes` defaults to "" and may be sent as null. */
  datatype OrderRequest = OrderRequest(time: string, size: string, beans: string, notes: Option<string>)

  /**
   `POST /orders` (backend/main.py:343-401). An unknown bean or a bean whose stock is not
   positive answers 400. Otherwise that bean's stock drops by one and a "pending" order is
   stored under id `count + 1001`; an id already taken fails at commit (500). Every failure
   leaves the database untouched.
   */
  function CreateOrder(db: Db, user: Principal, request: OrderRequest, today: string): (r: Reply<DeliveryOrder>)
    ensures r.outcome.Err? ==> r.db == db
    ensures (request.beans !in db.beanInventory || db.beanInventory[request.beans] <= 0)
      <==> r.outcome == Err(BadRequest)
    ensures r.outcome.Err? && r.outcome.error != BadRequest ==>
      r.outcome.error == InternalError && |db.orders| + 1001 in db.orders
    ensures r.outcome.Ok? ==>
      var order := r.outcome.value;
      && order.id == |db.orders| + 1001
      && order.id !in db.orders
      && order == DeliveryOrder(order.id, user.id, today, request.time, request.size,
                                request.beans, "pending", request.notes)
      && r.db.orders == db.orders[order.id := order]
      && |r.db.orders| == |db.orders| + 1
      && r.db.beanInventory.Keys == db.beanInventory.Keys
      && r.db.beanInventory[request.beans] == db.beanInventory[request.beans] - 1 >= 0
      && (forall b | b in db.beanInventory && b != request.beans ::
            r.db.beanInventory[b] == db.beanInventory[b])
      && r.db.(orders := db.orders, beanInventory := db.beanInventory) == db
  {
    if request.beans !in db.beanInventory || db.beanInventory[request.beans] <= 0 then
      Reply(db, Err(BadRequest))
    else
      var inventory := db.beanInventory[request.beans := db.beanInventory[request.beans] - 1];
      var id := OrderIds.DeliveryOrderId(|db.orders|);
      if id in db.orders then Reply(db, Err(InternalError))
      else
        var order := DeliveryOrder(id, user.id, today, request.time, request.size,
                                   request.beans, "pending", request.notes);
        Reply(db.(beanInventory := inventory, orders := db.orders[id := order]), Ok(order))
  }

  /**
   `PATCH /admin/orders/{id}/status` (backend/main.py:538-554). Non-admins get 403 and an
   unknown id 404. Otherwise the order's status becomes the given text, whatever it is: no
   transition is checked and nothing else in the database changes.
   */
  function UpdateDeliveryStatus(db: Db, user: Principal, orderId: int, status: string): (r: Reply<()>)
    ensures r.outcome.Err? ==> r.db == db
    ensures user.role != Auth.AdminRole ==> r.outcome == Err(Forbidden)
    ensures user.role == Auth.AdminRole && orderId !in db.orders ==> r.outcome == Err(NotFound)
    ensures r.outcome.Ok? <==> user.role == Auth.AdminRole && orderId in db.orders
    ensures r.outcome.Ok? ==>
      && r.db.orders.Keys == db.orders.Keys
      && r.db.orders[orderId] == db.orders[orderId].(status := status)
      && (forall id | id in db.orders && id != orderId :: r.db.orders[id] == db.orders[id])
      && r.db.(orders := db.orders) == db
  {
    match Auth.RequireAdmin(user)
    case Err(e) => Reply(db, Err(e))
    case Ok(_) =>
      if orderId !in db.orders then Reply(db, Err(NotFound))
      else
        var order := db.orders[orderId];
        Reply(db.(orders := db.orders[orderId := order.(status := status)]), Ok(()))
  }

  /** The response of `GET /settings`: fixed shop data plus the beans currently in stock. */
  datatype Settings = Settings(
    shopName: string,
    shopAddress: string,
    contact: string,
    opensAt: string,
    closesAt: string,
    beanInventory: map<string, int>)

  /**
   The bean filter of `GET /settings` (backend/main.py:323-325): exactly the delivery beans
   whose stock is positive, each with its stock.
   */
  function AvailableBeans(inventory: map<string, int>): (r: map<string, int>)
    ensures forall b :: b in r <==> b in inventory && inventory[b] > 0
    ensures forall b | b in r :: r[b] == inventory[b]
  {
    map b | b in inventory && inventory[b] > 0 :: inventory[b]
  }

  /** `GET /settings` (backend/main.py:318-341). */
  function GetSettings(db: Db): (r: Settings)
    ensures r.beanInventory == AvailableBeans(db.beanInventory)
    ensures r.shopName == "出張コーヒー屋" && r.opensAt == "09:00" && r.closesAt == "18:00"
  {
    Settings("出張コーヒー屋", "オフィスビル 3F", "080-1234-5678", "09:00", "18:00",
             AvailableBeans(db.beanInventory))
  }

  /** A delivery order is refused with 400 exactly when its bean is not offered by the settings view. */
  lemma OfferedBeansAreOrderable(db: Db, user: Principal, request: OrderRequest, today: string)
    ensures CreateOrder(db, user, request, today).outcome != Err(BadRequest)
      <==> request.beans in GetSettings(db).beanInventory
  {
  }

  /** Two orders placed in a row receive consecutive ids. */
  lemma ConsecutiveOrderIds(db: Db, user: Principal, first: OrderRequest, second: OrderRequest, today: string)
    requires CreateOrder(db, user, first, today).outcome.Ok?
    requires CreateOrder(CreateOrder(db, user, first, today).db, user, second, today).outcome.Ok?
    ensures CreateOrder(CreateOrder(db, user, first, today).db, user, second, today).outcome.value.id
      == CreateOrder(db, user, first, today).outcome.value.id + 1
  {
  }

  /**
   Ordering the last unit of a bean removes it from the published settings; any other bean
   keeps its entry.
   */
  lemma LastUnitLeavesSettings(db: Db, user: Principal, request: OrderRequest, today: string)
    requires CreateOrder(db, user, request, today).outcome.Ok?
    ensures var after := GetSettings(CreateOrder(db, user, request, today).db).beanInventory;
      && (request.beans in after <==> db.beanInventory[request.beans] > 1)
      && forall b | b != request.beans :: (b in after <==> b in GetSettings(db).beanInventory)
  {
  }

  /** The server accepts a move from a finished status back to "pending": there is no state machine. */
  lemma StatusUpdateHasNoTransitionCheck(db: Db, admin: Principal, orderId: int)
    requires admin.role == "admin" && orderId in db.orders && db.orders[orderId].status == "delivered"
    ensures var r := UpdateDeliveryStatus(db, admin, orderId, "pending");
      r.outcome.Ok? && r.db.orders[orderId].status == "pending"
  {
  }

  /** Repeating a status update changes nothing further. */
  lemma StatusUpdateIdempotent(db: Db, admin: Principal, orderId: int, status: string)
    requires UpdateDeliveryStatus(db, admin, orderId, status).outcome.Ok?
    ensures var once := UpdateDeliveryStatus(db, admin, orderId, status).db;
      UpdateDeliveryStatus(once, admin, orderId, status) == Reply(once, Ok(()))
  {
    var once := UpdateDeliveryStatus(db, admin, orderId, status).db;
    assert once.orders[orderId := once.orders[orderId].(status := status)] == once.orders;
  }
}

=== FILE: js_lookup.dfy ===
/**
 What the status-badge components rely on from JavaScript: reading a key of an object
 literal, and the `||` fallback. A plain object literal inherits the members of
 `Object.prototype`, so a key that is not one of its own properties can still find a
 (truthy) inherited member instead of `undefined`.
 */
module JsLookup {
  /** Badge colours used by the pages; each becomes a `badge-<colour>` CSS class. */
  datatype Color = Yellow | Blue | Green | Gray | Red

  /** A status badge: the label and the colour. */
  datatype Badge = Badge(text: string, color: Color)

  /** The names of the members every object literal inherits from `Object.prototype`. */
  const PrototypeNames: set<string> := {
    "constructor", "__defineGetter__", "__defineSetter__", "hasOwnProperty",
    "__lookupGetter__", "__lookupSetter__", "isPrototypeOf", "propertyIsEnumerable",
    "toString", "valueOf", "__proto__", "toLocaleString"
  }

  /** The value of `object[key]`. */
  datatype Found<+V> = Own(value: V) | Inherited(name: string) | Undefined

  /** What a page puts on screen for one field of a badge. */
  datatype Shown<+T> = Value(value: T) | PrototypeMember(name: string) | Nothing

  /** What a page renders for a badge: the label and the colour, each as `Shown`. */
  datatype Rendered = Rendered(text: Shown<string>, color: Shown<Color>)

  /** A badge whose two fields are both ordinary values. */
  function Render(b: Badge): Rendered {
    Rendered(Value(b.text), Value(b.color))
  }

  /** `object[key]` for an object literal whose own properties are `own`. */
  function Lookup<V>(own: map<string, V>, key: string): (r: Found<V>)
    ensures r.Own? <==> key in own
    ensures r.Own? ==> r.value == own[key]
    ensures r.Inherited? <==> key !in own && key in PrototypeNames
    ensures r.Inherited? ==> r.name == key
  {
    if key in own then Own(own[key])
    else if key in PrototypeNames then Inherited(key)
    else Undefined
  }

  /**
   `object[key] || fallback` when every own value is truthy (the pages' maps hold non-empty
   strings and objects): anything found, own or inherited, wins over the fallback.
   */
  function OrElse<V>(found: Found<V>, fallback: V): (r: Shown<V>)
    ensures found.Undefined? ==> r == Value(fallback)
    ensures found.Own? ==> r == Value(found.value)
    ensures found.Inherited? ==> r == PrototypeMember(found.name)
  {
    match found
    case Own(v) => Value(v)
    case Inherited(name) => PrototypeMember(name)
    case Undefined => Value(fallback)
  }
}

=== FILE: migrate.dfy ===
/**
 The one-shot YAML-to-database migration of backend/migrate.py (lines 15-123).

 Five collections are merged, in order, into the database inside one transaction: users
 (keyed by e-mail), products (by id), bean orders with their items (by order id), the
 delivery bean inventory (by name) and delivery orders (by id). A record is added only when
 its key is absent from the database. The session does not flush automatically, so within
 one collection the existence check sees the database as it was before the run: two YAML
 records with the same new key are both added, and the duplicate is rejected by the database
 when the pending rows are written. An explicit flush (line 91) writes the users, products,
 bean orders and inventory, so a duplicate among those fails there; it also makes the
 inventory added by the run visible to the delivery-order loop, which skips an order whose bean
 is not in the inventory. A duplicate delivery-order id fails at the commit (line 112). An item
 without `quantity` fails while the bean orders are read, before the flush. Any error rolls the
 whole run back.
 */
module Migration {
  import opened Wrappers
  import opened Store

  /** Why a run is rolled back: a duplicate key when rows are written, or an item without `quantity`. */
  datatype MigrationError = DuplicateKey | MissingQuantity

  /** The value of an optional YAML key: absent, explicitly null, or a string. */
  datatype YamlValue = Missing | Null | Text(text: string)
  {
    /** Python truthiness of the value (`if prod_id:`). */
    predicate Truthy() {
      Text? && text != ""
    }
  }

  /** An item of a YAML bean order. */
  datatype YamlItem = YamlItem(productId: YamlValue, id: YamlValue, quantity: Option<int>)

  /** A YAML bean order: the header columns plus its items. */
  datatype YamlBeanOrder = YamlBeanOrder(header: BeanOrder, items: seq<YamlItem>)

  /** The content of the YAML file, as the script reads it. */
  datatype YamlData = YamlData(
    users: seq<UserRecord>,
    products: seq<Product>,
    beanOrders: seq<YamlBeanOrder>,
    inventory: map<string, int>,
    orders: seq<DeliveryOrder>)

  // ---------------------------------------------------------------------------------------
  // The insert-if-absent loop shared by the keyed collections.

  function KeysOf<K(==), V(==)>(s: seq<(K, V)>): set<K> {
    set i | 0 <= i < |s| :: s[i].0
  }

  predicate DistinctKeys<K(==), V(==)>(s: seq<(K, V)>) {
    forall i, j | 0 <= i < j < |s| :: s[i].0 != s[j].0
  }

  /** Reference definition: the entries the loop adds, in input order. */
  function Fresh<K(==), V(==)>(present: set<K>, entries: seq<(K, V)>, eligible: V -> bool): (r: seq<(K, V)>)
    ensures forall e | e in r :: e in entries && e.0 !in present && eligible(e.1)
    ensures forall e | e in entries && e.0 !in present && eligible(e.1) :: e in r
    decreases |entries|
  {
    if |entries| == 0 then []
    else if entries[0].0 in present || !eligible(entries[0].1) then Fresh(present, entries[1..], eligible)
    else [entries[0]] + Fresh(present, entries[1..], eligible)
  }

  /**
   The loop over one collection: skip a record whose key is in the database or that is not
   eligible, remember every other one as pending, and fail when a pending key repeats.
   */
  function InsertAbsent<K(==), V(==)>(present: set<K>, entries: seq<(K, V)>, eligible: V -> bool,
                              pending: seq<(K, V)>): Result<seq<(K, V)>, MigrationError>
    decreases |entries|
  {
    if |entries| == 0 then Ok(pending)
    else if entries[0].0 in present || !eligible(entries[0].1) then
      InsertAbsent(present, entries[1..], eligible, pending)
    else if entries[0].0 in KeysOf(pending) then Err(DuplicateKey)
    else InsertAbsent(present, entries[1..], eligible, pending + [entries[0]])
  }

  /** The loop adds exactly the fresh entries, and fails exactly when two of them share a key. */
  lemma {:induction false} InsertAbsentIsFresh<K, V>(present: set<K>, entries: seq<(K, V)>,
                                                     eligible: V -> bool, pending: seq<(K, V)>)
    requires DistinctKeys(pending)
    ensures var all := pending + Fresh(present, entries, eligible);
      InsertAbsent(present, entries, eligible, pending)
      == if DistinctKeys(all) then Ok(all) else Err(DuplicateKey)
    decreases |entries|
  {
    if |entries| == 0 {
      assert pending + [] == pending;
    } else if entries[0].0 in present || !eligible(entries[0].1) {
      InsertAbsentIsFresh(present, entries[1..], eligible, pending);
    } else {
      var rest := Fresh(present, entries[1..], eligible);
      var all := pending + Fresh(present, entries, eligible);
      assert all == (pending + [entries[0]]) + rest;
      if entries[0].0 in KeysOf(pending) {
        var i :| 0 <= i < |pending| && pending[i].0 == entries[0].0;
        assert all[i].0 == all[|pending|].0;
      } else {
        assert DistinctKeys(pending + [entries[0]]);
        InsertAbsentIsFresh(present, entries[1..], eligible, pending + [entries[0]]);
      }
    }
  }

  /** The map holding a sequence of entries with distinct keys. */
  function ToMap<K(==), V(==)>(s: seq<(K, V)>): (m: map<K, V>)
    ensures m.Keys == KeysOf(s)
    ensures DistinctKeys(s) ==> forall i | 0 <= i < |s| :: m[s[i].0] == s[i].1
    decreases |s|
  {
    if |s| == 0 then map[]
    else
      var m := ToMap(s[1..]);
      assert KeysOf(s) == KeysOf(s[1..]) + {s[0].0} by {
        forall k | k in KeysOf(s) ensures k in KeysOf(s[1..]) + {s[0].0} {
          var i :| 0 <= i < |s| && s[i].0 == k;
          if i > 0 { assert s[1..][i - 1] == s[i]; }
        }
      }
      m[s[0].0 := s[0].1]
  }

  /** The facts about a table extended with the fresh entries of one collection. */
  lemma MergedTable<K, V>(base: map<K, V>, entries: seq<(K, V)>, eligible: V -> bool)
    requires DistinctKeys(Fresh(base.Keys, entries, eligible))
    ensures var merged := base + ToMap(Fresh(base.Keys, entries, eligible));
      && (forall k | k in base :: k in merged && merged[k] == base[k])
      && (forall e | e in entries && e.0 !in base && eligible(e.1) :: e.0 in merged && merged[e.0] == e.1)
      && (forall k | k in merged && k !in base :: (k, merged[k]) in entries && eligible(merged[k]))
  {
    var f := Fresh(base.Keys, entries, eligible);
    var m := ToMap(f);
    forall k | k in m ensures k !in base && (k, m[k]) in entries && eligible(m[k]) {
      var i :| 0 <= i < |f| && f[i].0 == k;
      assert f[i] in f;
    }
    forall e | e in entries && e.0 !in base && eligible(e.1) ensures e.0 in m && m[e.0] == e.1 {
      assert e in f;
      var i :| 0 <= i < |f| && f[i] == e;
    }
  }

  /**
   One collection merged into its table. Existing rows keep their values, every eligible
   record whose key was absent is stored as given, every new row comes from such a record,
   and the merge fails exactly when two such records share a key.
   */
  function MergeTable<K(==), V(==)>(base: map<K, V>, entries: seq<(K, V)>, eligible: V -> bool)
    : (r: Result<map<K, V>, MigrationError>)
    ensures r.Ok? <==> DistinctKeys(Fresh(base.Keys, entries, eligible))
    ensures r.Err? ==> r.error == DuplicateKey
    ensures r.Ok? ==> forall k | k in base :: k in r.value && r.value[k] == base[k]
    ensures r.Ok? ==> forall e | e in entries && e.0 !in base && eligible(e.1) ::
      e.0 in r.value && r.value[e.0] == e.1
    ensures r.Ok? ==> forall k | k in r.value && k !in base ::
      (k, r.value[k]) in entries && eligible(r.value[k])
  {
    InsertAbsentIsFresh(base.Keys, entries, eligible, []);
    assert [] + Fresh(base.Keys, entries, eligible) == Fresh(base.Keys, entries, eligible);
    match InsertAbsent(base.Keys, entries, eligible, [])
    case Err(e) => Err(e)
    case Ok(added) =>
      MergedTable(base, entries, eligible);
      Ok(base + ToMap(added))
  }

  /** No eligible record with an absent key: nothing is fresh. */
  lemma {:induction false} FreshWhenAllPresent<K, V>(present: set<K>, entries: seq<(K, V)>, eligible: V -> bool)
    requires forall e | e in entries && eligible(e.1) :: e.0 in present
    ensures Fresh(present, entries, eligible) == []
    decreases |entries|
  {
    if |entries| > 0 {
      assert entries[0] in entries;
      FreshWhenAllPresent(present, entries[1..], eligible);
    }
  }

  /** Every record is already present: the merge adds nothing. */
  lemma MergeTableNothingFresh<K, V>(base: map<K, V>, entries: seq<(K, V)>, eligible: V -> bool)
    requires forall e | e in entries && eligible(e.1) :: e.0 in base
    ensures MergeTable(base, entries, eligible) == Ok(base)
  {
    FreshWhenAllPresent(base.Keys, entries, eligible);
    InsertAbsentIsFresh(base.Keys, entries, eligible, []);
    assert InsertAbsent(base.Keys, entries, eligible, []) == Ok([]);
    assert base + ToMap<K, V>([]) == base;
  }

  // ---------------------------------------------------------------------------------------
  // Collection-specific keys and rows.

  /** The eligibility of the collections that have no condition besides the absent key. */
  function Everything<V>(): V -> bool {
    v => true
  }

  function KeyedUsers(users: seq<UserRecord>): (r: seq<(string, UserRecord)>)
    ensures |r| == |users| && forall i | 0 <= i < |r| :: r[i] == (users[i].email, users[i])
    ensures forall u | u in users :: (u.email, u) in r
    ensures forall e | e in r :: e.1 in users && e.0 == e.1.email
  {
    seq(|users|, i requires 0 <= i < |users| => (users[i].email, users[i]))
  }

  /**
   `id` is the primary key of `users` (backend/main.py:89) and `UserModel(**user)` carries the
   YAML id: the users a run adds must have ids that differ from each other and from the id of
   every stored user.
   */
  predicate UserIdsFree(base: map<string, UserRecord>, newUsers: seq<(string, UserRecord)>) {
    && (forall i, j | 0 <= i < j < |newUsers| :: (newUsers[i].1).id != (newUsers[j].1).id)
    && (forall i, k | 0 <= i < |newUsers| && k in base :: (newUsers[i].1).id != base[k].id)
  }

  /**
   The users merge: looked up by e-mail like the other collections, and rejected at the flush
   when two new users share an e-mail or a new user's id is already taken.
   */
  function MergeUsers(base: map<string, UserRecord>, users: seq<UserRecord>)
    : (r: Result<map<string, UserRecord>, MigrationError>)
    ensures var newUsers := Fresh(base.Keys, KeyedUsers(users), Everything());
      r.Ok? <==> DistinctKeys(newUsers) && UserIdsFree(base, newUsers)
    ensures r.Err? ==> r.error == DuplicateKey
    ensures r.Ok? ==> r == MergeTable(base, KeyedUsers(users), Everything())
  {
    match MergeTable(base, KeyedUsers(users), Everything())
    case Err(e) => Err(e)
    case Ok(merged) =>
      if UserIdsFree(base, Fresh(base.Keys, KeyedUsers(users), Everything())) then Ok(merged)
      else Err(DuplicateKey)
  }

  function KeyedProducts(products: seq<Product>): (r: seq<(string, Product)>)
    ensures |r| == |products| && forall i | 0 <= i < |r| :: r[i] == (products[i].id, products[i])
    ensures forall p | p in products :: (p.id, p) in r
    ensures forall e | e in r :: e.1 in products && e.0 == e.1.id
  {
    seq(|products|, i requires 0 <= i < |products| => (products[i].id, products[i]))
  }

  function KeyedBeanOrders(orders: seq<YamlBeanOrder>): (r: seq<(string, YamlBeanOrder)>)
    ensures |r| == |orders| && forall i | 0 <= i < |r| :: r[i] == (orders[i].header.orderId, orders[i])
    ensures forall e | e in r :: e.1 in orders && e.0 == e.1.header.orderId
  {
    seq(|orders|, i requires 0 <= i < |orders| => (orders[i].header.orderId, orders[i]))
  }

  function KeyedHeaders(orders: seq<YamlBeanOrder>): (r: seq<(string, BeanOrder)>)
    ensures |r| == |orders| && forall i | 0 <= i < |r| :: r[i] == (orders[i].header.orderId, orders[i].header)
    ensures forall o | o in orders :: (o.header.orderId, o.header) in r
    ensures forall e | e in r :: e.0 == e.1.orderId && exists o | o in orders :: o.header == e.1
  {
    seq(|orders|, i requires 0 <= i < |orders| => (orders[i].header.orderId, orders[i].header))
  }

  function KeyedOrders(orders: seq<DeliveryOrder>): (r: seq<(int, DeliveryOrder)>)
    ensures |r| == |orders| && forall i | 0 <= i < |r| :: r[i] == (orders[i].id, orders[i])
    ensures forall o | o in orders :: (o.id, o) in r
    ensures forall e | e in r :: e.1 in orders && e.0 == e.1.id
  {
    seq(|orders|, i requires 0 <= i < |orders| => (orders[i].id, orders[i]))
  }

  /** The product id of an item: `product_id` when that key is present, otherwise `id`. */
  function ItemProductId(item: YamlItem): (v: YamlValue)
    ensures item.productId.Missing? ==> v == item.id
    ensures !item.productId.Missing? ==> v == item.productId
  {
    if item.productId.Missing? then item.id else item.productId
  }

  /**
   The item rows stored for a new bean order (backend/migrate.py:68-75): one row per item
   whose product id is truthy, in order; an item with a truthy product id and no quantity
   aborts the run.
   */
  /** Every item that yields a row carries a `quantity` (otherwise `item_yaml["quantity"]` raises). */
  predicate HasQuantities(items: seq<YamlItem>) {
    forall i | 0 <= i < |items| :: ItemProductId(items[i]).Truthy() ==> items[i].quantity.Some?
  }

  function ItemRows(orderId: string, items: seq<YamlItem>): (r: Result<seq<BeanOrderItem>, MigrationError>)
    ensures r.Ok? <==> HasQuantities(items)
    ensures r.Err? ==> r.error == MissingQuantity
    ensures r.Ok? ==> |r.value| <= |items|
    ensures r.Ok? ==> forall k | 0 <= k < |r.value| ::
      r.value[k].beanOrderId == orderId && r.value[k].productId != ""
      && exists i :: 0 <= i < |items| && ItemProductId(items[i]) == Text(r.value[k].productId)
                     && items[i].quantity == Some(r.value[k].quantity)
    decreases |items|
  {
    if |items| == 0 then Ok([])
    else
      var pid := ItemProductId(items[0]);
      if !pid.Truthy() then
        var rest := ItemRows(orderId, items[1..]);
        assert rest.Ok? ==> forall k | 0 <= k < |rest.value| ::
          exists i :: 0 <= i < |items| && ItemProductId(items[i]) == Text(rest.value[k].productId)
                      && items[i].quantity == Some(rest.value[k].quantity) by {
          if rest.Ok? {
            forall k | 0 <= k < |rest.value|
              ensures exists i :: 0 <= i < |items| && ItemProductId(items[i]) == Text(rest.value[k].productId)
                                  && items[i].quantity == Some(rest.value[k].quantity)
            {
              var i :| 0 <= i < |items[1..]| && ItemProductId(items[1..][i]) == Text(rest.value[k].productId)
                       && items[1..][i].quantity == Some(rest.value[k].quantity);
              assert items[i + 1] == items[1..][i];
            }
          }
        }
        rest
      else if items[0].quantity.None? then Err(MissingQuantity)
      else
        match ItemRows(orderId, items[1..])
        case Err(e) => Err(e)
        case Ok(rest) =>
          var rows := [BeanOrderItem(orderId, pid.text, items[0].quantity.value)] + rest;
          forall k | 0 <= k < |rows|
            ensures exists i :: 0 <= i < |items| && ItemProductId(items[i]) == Text(rows[k].productId)
                                && items[i].quantity == Some(rows[k].quantity)
          {
            if k > 0 {
              assert rows[k] == rest[k - 1];
              var i :| 0 <= i < |items[1..]| && ItemProductId(items[1..][i]) == Text(rest[k - 1].productId)
                       && items[1..][i].quantity == Some(rest[k - 1].quantity);
              assert items[i + 1] == items[1..][i];
            } else {
              assert ItemProductId(items[0]) == Text(rows[0].productId);
            }
          }
          Ok(rows)
  }

  /** The item rows of all newly added bean orders, order by order. */
  function AllItemRows(added: seq<YamlBeanOrder>): (r: Result<seq<BeanOrderItem>, MigrationError>)
    ensures r.Err? ==> r.error == MissingQuantity
    ensures r.Ok? <==> forall i | 0 <= i < |added| :: ItemRows(added[i].header.orderId, added[i].items).Ok?
    ensures |added| == 0 ==> r == Ok([])
    decreases |added|
  {
    if |added| == 0 then Ok([])
    else
      match ItemRows(added[0].header.orderId, added[0].items)
      case Err(e) => Err(e)
      case Ok(rows) =>
        match AllItemRows(added[1..])
        case Err(e) => Err(e)
        case Ok(rest) =>
          assert forall i | 1 <= i < |added| :: added[i] == added[1..][i - 1];
          Ok(rows + rest)
  }

  /**
   Insert-if-absent merge of the inventory (backend/migrate.py:83-87): a name already in the
   database keeps its stock, a new name gets the YAML stock.
   */
  function MergeInventory(base: map<string, int>, yaml: map<string, int>): (r: map<string, int>)
    ensures r.Keys == base.Keys + yaml.Keys
    ensures forall name | name in base :: r[name] == base[name]
    ensures forall name | name in yaml && name !in base :: r[name] == yaml[name]
  {
    map name | name in base.Keys + yaml.Keys :: if name in base then base[name] else yaml[name]
  }

  /** The delivery orders the loop would add: new ids whose bean exists in `inventory`. */
  function BeanKnown(inventory: map<string, int>): DeliveryOrder -> bool {
    (o: DeliveryOrder) => o.beans in inventory
  }

  // ---------------------------------------------------------------------------------------
  // The whole run.

  /** The bean orders a run adds: those whose id is not yet in the database, in input order. */
  function NewBeanOrders(db: Db, data: YamlData): seq<YamlBeanOrder> {
    var added := Fresh(db.beanOrders.Keys, KeyedBeanOrders(data.beanOrders), Everything());
    seq(|added|, i requires 0 <= i < |added| => added[i].1)
  }

  /**
   The run of backend/migrate.py:39-112, up to the commit: the database it would commit, or
   the reason the transaction is rolled back.
   */
  function Migrate(db: Db, data: YamlData): (r: Result<Db, MigrationError>)
    // Existing rows are never overwritten.
    ensures r.Ok? ==> var d := r.value;
      && (forall k | k in db.users :: k in d.users && d.users[k] == db.users[k])
      && (forall k | k in db.products :: k in d.products && d.products[k] == db.products[k])
      && (forall k | k in db.beanOrders :: k in d.beanOrders && d.beanOrders[k] == db.beanOrders[k])
      && (forall k | k in db.beanInventory :: k in d.beanInventory && d.beanInventory[k] == db.beanInventory[k])
      && (forall k | k in db.orders :: k in d.orders && d.orders[k] == db.orders[k])
      && |d.beanOrderItems| >= |db.beanOrderItems|
      && d.beanOrderItems[..|db.beanOrderItems|] == db.beanOrderItems
  {
    match AllItemRows(NewBeanOrders(db, data))
    case Err(e) => Err(e)
    case Ok(rows) =>
      match MergeUsers(db.users, data.users)
      case Err(e) => Err(e)
      case Ok(users) =>
        match MergeTable(db.products, KeyedProducts(data.products), Everything())
        case Err(e) => Err(e)
        case Ok(products) =>
          match MergeTable(db.beanOrders, KeyedHeaders(data.beanOrders), Everything())
          case Err(e) => Err(e)
          case Ok(beanOrders) =>
            var inventory := MergeInventory(db.beanInventory, data.inventory);
            match MergeTable(db.orders, KeyedOrders(data.orders), BeanKnown(inventory))
            case Err(e) => Err(e)
            case Ok(orders) =>
              Ok(Db(users, products, inventory, orders, beanOrders, db.beanOrderItems + rows))
  }

  /** A successful run: every merge succeeded, and the committed database is made of their results. */
  lemma MigrateParts(db: Db, data: YamlData)
    requires Migrate(db, data).Ok?
    ensures var inventory := MergeInventory(db.beanInventory, data.inventory);
      && MergeUsers(db.users, data.users).Ok?
      && MergeTable(db.products, KeyedProducts(data.products), Everything()).Ok?
      && MergeTable(db.beanOrders, KeyedHeaders(data.beanOrders), Everything()).Ok?
      && AllItemRows(NewBeanOrders(db, data)).Ok?
      && MergeTable(db.orders, KeyedOrders(data.orders), BeanKnown(inventory)).Ok?
      && Migrate(db, data).value == Db(
           MergeUsers(db.users, data.users).value,
           MergeTable(db.products, KeyedProducts(data.products), Everything()).value,
           inventory,
           MergeTable(db.orders, KeyedOrders(data.orders), BeanKnown(inventory)).value,
           MergeTable(db.beanOrders, KeyedHeaders(data.beanOrders), Everything()).value,
           db.beanOrderItems + AllItemRows(NewBeanOrders(db, data)).value)
  {
  }

  /**
   A record whose key was absent is stored as given; a delivery order additionally needs its
   bean in the merged inventory.
   */
  lemma MigrateStoresAbsentRecords(db: Db, data: YamlData)
    requires Migrate(db, data).Ok?
    ensures var d := Migrate(db, data).value;
      && (forall u | u in data.users :: u.email in d.users && (u.email !in db.users ==> d.users[u.email] == u))
      && (forall p | p in data.products :: p.id in d.products && (p.id !in db.products ==> d.products[p.id] == p))
      && (forall o | o in data.beanOrders :: o.header.orderId in d.beanOrders
            && (o.header.orderId !in db.beanOrders ==> d.beanOrders[o.header.orderId] == o.header))
      && d.beanInventory.Keys == db.beanInventory.Keys + data.inventory.Keys
      && (forall b | b in data.inventory && b !in db.beanInventory :: d.beanInventory[b] == data.inventory[b])
      && (forall o | o in data.orders && o.id !in db.orders && o.beans in d.beanInventory ::
            o.id in d.orders && d.orders[o.id] == o)
  {
    MigrateParts(db, data);
    var d := Migrate(db, data).value;
    forall u | u in data.users
      ensures u.email in d.users && (u.email !in db.users ==> d.users[u.email] == u)
    {
      assert (u.email, u) in KeyedUsers(data.users);
    }
    forall p | p in data.products
      ensures p.id in d.products && (p.id !in db.products ==> d.products[p.id] == p)
    {
      assert (p.id, p) in KeyedProducts(data.products);
    }
    forall o | o in data.beanOrders
      ensures o.header.orderId in d.beanOrders
        && (o.header.orderId !in db.beanOrders ==> d.beanOrders[o.header.orderId] == o.header)
    {
      assert (o.header.orderId, o.header) in KeyedHeaders(data.beanOrders);
    }
    forall o | o in data.orders && o.id !in db.orders && o.beans in d.beanInventory
      ensures o.id in d.orders && d.orders[o.id] == o
    {
      assert (o.id, o) in KeyedOrders(data.orders);
      assert BeanKnown(d.beanInventory)(o);
    }
  }

  /** Every new row comes from the YAML data; every new delivery order names a known bean. */
  lemma MigrateAddsOnlyYamlRows(db: Db, data: YamlData)
    requires Migrate(db, data).Ok?
    ensures var d := Migrate(db, data).value;
      && (forall k | k in d.users && k !in db.users :: d.users[k] in data.users)
      && (forall k | k in d.products && k !in db.products :: d.products[k] in data.products)
      && (forall k | k in d.orders && k !in db.orders ::
            d.orders[k] in data.orders && d.orders[k].beans in d.beanInventory)
      && d.orders.Keys <= db.orders.Keys + set o | o in data.orders :: o.id
  {
    MigrateParts(db, data);
  }

  /** The database after running the script: the merged one, or the old one after a rollback. */
  function MigrateRun(db: Db, data: YamlData): (r: Db)
    ensures Migrate(db, data).Ok? ==> r == Migrate(db, data).value
    ensures Migrate(db, data).Err? ==> r == db
  {
    match Migrate(db, data)
    case Ok(merged) => merged
    case Err(_) => db
  }

  /**
   Running the script a second time on the same YAML data and the database the first run
   committed commits that same database: every insert is guarded by an existence check.
   */
  lemma MigrateIdempotent(db: Db, data: YamlData)
    requires Migrate(db, data).Ok?
    ensures Migrate(Migrate(db, data).value, data) == Migrate(db, data)
  {
    SecondRunKeyedTables(db, data);
    SecondRunBeanOrders(db, data);
    SecondRunDeliveries(db, data);
    MigrateFixedPoint(Migrate(db, data).value, data);
  }

  /** On the committed database the user and product merges add nothing. */
  lemma SecondRunKeyedTables(db: Db, data: YamlData)
    requires Migrate(db, data).Ok?
    ensures var d := Migrate(db, data).value;
      && MergeUsers(d.users, data.users) == Ok(d.users)
      && MergeTable(d.products, KeyedProducts(data.products), Everything()) == Ok(d.products)
  {
    var d := Migrate(db, data).value;
    MigrateStoresAbsentRecords(db, data);
    MergeTableNothingFresh(d.users, KeyedUsers(data.users), Everything());
    FreshWhenAllPresent(d.users.Keys, KeyedUsers(data.users), Everything());
    MergeTableNothingFresh(d.products, KeyedProducts(data.products), Everything());
  }

  /** On the committed database the bean-order merge adds no order and no item row. */
  lemma SecondRunBeanOrders(db: Db, data: YamlData)
    requires Migrate(db, data).Ok?
    ensures var d := Migrate(db, data).value;
      && MergeTable(d.beanOrders, KeyedHeaders(data.beanOrders), Everything()) == Ok(d.beanOrders)
      && AllItemRows(NewBeanOrders(d, data)) == Ok([])
  {
    var d := Migrate(db, data).value;
    MigrateStoresAbsentRecords(db, data);
    MergeTableNothingFresh(d.beanOrders, KeyedHeaders(data.beanOrders), Everything());
    FreshWhenAllPresent(d.beanOrders.Keys, KeyedBeanOrders(data.beanOrders), Everything());
    assert NewBeanOrders(d, data) == [];
  }

  /** On the committed database the inventory and delivery-order merges add nothing. */
  lemma SecondRunDeliveries(db: Db, data: YamlData)
    requires Migrate(db, data).Ok?
    ensures var d := Migrate(db, data).value;
      && MergeInventory(d.beanInventory, data.inventory) == d.beanInventory
      && MergeTable(d.orders, KeyedOrders(data.orders), BeanKnown(d.beanInventory)) == Ok(d.orders)
  {
    var d := Migrate(db, data).value;
    MigrateStoresAbsentRecords(db, data);
    forall e | e in KeyedOrders(data.orders) && BeanKnown(d.beanInventory)(e.1)
      ensures e.0 in d.orders
    {
      assert e.1 in data.orders;
    }
    MergeTableNothingFresh(d.orders, KeyedOrders(data.orders), BeanKnown(d.beanInventory));
  }

  /** A database on which every merge adds nothing is what the script commits for it. */
  lemma MigrateFixedPoint(d: Db, data: YamlData)
    requires MergeUsers(d.users, data.users) == Ok(d.users)
    requires MergeTable(d.products, KeyedProducts(data.products), Everything()) == Ok(d.products)
    requires MergeTable(d.beanOrders, KeyedHeaders(data.beanOrders), Everything()) == Ok(d.beanOrders)
    requires AllItemRows(NewBeanOrders(d, data)) == Ok([])
    requires MergeInventory(d.beanInventory, data.inventory) == d.beanInventory
    requires MergeTable(d.orders, KeyedOrders(data.orders), BeanKnown(d.beanInventory)) == Ok(d.orders)
    ensures Migrate(d, data) == Ok(d)
  {
    assert d.beanOrderItems + [] == d.beanOrderItems;
  }



  /**
   Two YAML users sharing an e-mail that the database does not hold yet make the flush fail,
   and the whole run, including every other collection, is rolled back. The error is the
   duplicate key unless an item without quantity stopped the run earlier.
   */
  lemma DuplicateNewUserRollsBack(db: Db, data: YamlData, i: nat, j: nat)
    requires i < j < |data.users|
    requires data.users[i].email == data.users[j].email && data.users[i].email !in db.users
    ensures Migrate(db, data).Err?
    ensures AllItemRows(NewBeanOrders(db, data)).Ok? ==> Migrate(db, data) == Err(DuplicateKey)
    ensures MigrateRun(db, data) == db
  {
    var entries := KeyedUsers(data.users);
    FreshRepeatedKey(db.users.Keys, entries, Everything(), i, j);
  }

  /** A new user whose e-mail is absent but whose id is taken rolls the whole run back. */
  lemma NewUserWithTakenIdRollsBack(db: Db, data: YamlData, i: nat, k: string)
    requires i < |data.users| && data.users[i].email !in db.users
    requires k in db.users && db.users[k].id == data.users[i].id
    ensures Migrate(db, data).Err?
    ensures MigrateRun(db, data) == db
  {
    var u := data.users[i];
    var newUsers := Fresh(db.users.Keys, KeyedUsers(data.users), Everything());
    assert (u.email, u) in KeyedUsers(data.users);
    assert (u.email, u) in newUsers;
    var a :| 0 <= a < |newUsers| && newUsers[a] == (u.email, u);
    assert !UserIdsFree(db.users, newUsers);
    RejectedUsersRollBack(db, data);
  }

  /** A users merge that fails rolls the whole run back. */
  lemma RejectedUsersRollBack(db: Db, data: YamlData)
    requires MergeUsers(db.users, data.users).Err?
    ensures Migrate(db, data).Err?
    ensures MigrateRun(db, data) == db
  {
  }

  /** Two new users with different e-mails but the same id roll the whole run back. */
  lemma NewUsersSharingIdRollBack(db: Db, data: YamlData, i: nat, j: nat)
    requires i < |data.users| && j < |data.users|
    requires data.users[i].email != data.users[j].email
    requires data.users[i].email !in db.users && data.users[j].email !in db.users
    requires data.users[i].id == data.users[j].id
    ensures Migrate(db, data).Err?
    ensures MigrateRun(db, data) == db
  {
    var u, v := data.users[i], data.users[j];
    var newUsers := Fresh(db.users.Keys, KeyedUsers(data.users), Everything());
    assert (u.email, u) in KeyedUsers(data.users) && (v.email, v) in KeyedUsers(data.users);
    assert (u.email, u) in newUsers && (v.email, v) in newUsers;
    var a :| 0 <= a < |newUsers| && newUsers[a] == (u.email, u);
    var b :| 0 <= b < |newUsers| && newUsers[b] == (v.email, v);
    if a < b {
      assert (newUsers[a].1).id == (newUsers[b].1).id;
    } else {
      assert (newUsers[b].1).id == (newUsers[a].1).id;
    }
    assert !UserIdsFree(db.users, newUsers);
    RejectedUsersRollBack(db, data);
  }

  /**
   When the run commits: every new bean order's items carry quantities, the new users have
   distinct e-mails and free ids, the new products, bean orders and delivery orders (those whose
   bean is in the merged inventory) have distinct keys.
   */
  lemma MigrateSucceedsIff(db: Db, data: YamlData)
    ensures Migrate(db, data).Ok? <==>
      var added := NewBeanOrders(db, data);
      var users := Fresh(db.users.Keys, KeyedUsers(data.users), Everything());
      var inventory := MergeInventory(db.beanInventory, data.inventory);
      && (forall i | 0 <= i < |added| :: HasQuantities(added[i].items))
      && DistinctKeys(users) && UserIdsFree(db.users, users)
      && DistinctKeys(Fresh(db.products.Keys, KeyedProducts(data.products), Everything()))
      && DistinctKeys(Fresh(db.beanOrders.Keys, KeyedHeaders(data.beanOrders), Everything()))
      && DistinctKeys(Fresh(db.orders.Keys, KeyedOrders(data.orders), BeanKnown(inventory)))
  {
    AllItemRowsOkIff(NewBeanOrders(db, data));
    MigrateOkIffMergesOk(db, data);
  }

  /** A run commits exactly when each of its merges succeeds. */
  lemma MigrateOkIffMergesOk(db: Db, data: YamlData)
    ensures Migrate(db, data).Ok? <==>
      && AllItemRows(NewBeanOrders(db, data)).Ok?
      && MergeUsers(db.users, data.users).Ok?
      && MergeTable(db.products, KeyedProducts(data.products), Everything()).Ok?
      && MergeTable(db.beanOrders, KeyedHeaders(data.beanOrders), Everything()).Ok?
      && MergeTable(db.orders, KeyedOrders(data.orders),
                    BeanKnown(MergeInventory(db.beanInventory, data.inventory))).Ok?
  {
  }

  /** The item rows of some orders can be built exactly when every one of their items has a quantity. */
  lemma AllItemRowsOkIff(added: seq<YamlBeanOrder>)
    ensures AllItemRows(added).Ok? <==> forall i | 0 <= i < |added| :: HasQuantities(added[i].items)
  {
    if AllItemRows(added).Ok? {
      forall i | 0 <= i < |added| ensures HasQuantities(added[i].items) {
        assert ItemRows(added[i].header.orderId, added[i].items).Ok?;
      }
    } else {
      var i :| 0 <= i < |added| && !ItemRows(added[i].header.orderId, added[i].items).Ok?;
      assert !HasQuantities(added[i].items);
    }
  }

  /** Two kept records with the same key make the kept list contain a repeated key. */
  lemma {:induction false} FreshRepeatedKey<K, V>(present: set<K>, entries: seq<(K, V)>,
                                                  eligible: V -> bool, i: nat, j: nat)
    requires i < j < |entries| && entries[i].0 == entries[j].0
    requires entries[i].0 !in present && eligible(entries[i].1) && eligible(entries[j].1)
    ensures !DistinctKeys(Fresh(present, entries, eligible))
    decreases |entries|
  {
    var tail := entries[1..];
    assert tail[j - 1] == entries[j];
    if i == 0 {
      FreshRepeatsHead(present, entries, eligible, j);
    } else {
      assert tail[i - 1] == entries[i];
      FreshRepeatedKey(present, tail, eligible, i - 1, j - 1);
      if !(entries[0].0 in present || !eligible(entries[0].1)) {
        ConsKeepsRepeat(entries[0], Fresh(present, tail, eligible));
      }
    }
  }

  /** A kept first entry whose key comes back later repeats in the kept list. */
  lemma FreshRepeatsHead<K, V>(present: set<K>, entries: seq<(K, V)>, eligible: V -> bool, j: nat)
    requires 0 < j < |entries| && entries[0].0 == entries[j].0
    requires entries[0].0 !in present && eligible(entries[0].1) && eligible(entries[j].1)
    ensures !DistinctKeys(Fresh(present, entries, eligible))
  {
    var rest := Fresh(present, entries[1..], eligible);
    var f := [entries[0]] + rest;
    assert entries[j] in entries[1..] by {
      assert entries[1..][j - 1] == entries[j];
    }
    var b :| 0 <= b < |rest| && rest[b] == entries[j];
    assert f[0].0 == f[b + 1].0;
  }

  /** Putting an entry in front keeps a repeated key repeated. */
  lemma ConsKeepsRepeat<K, V>(x: (K, V), rest: seq<(K, V)>)
    requires !DistinctKeys(rest)
    ensures !DistinctKeys([x] + rest)
  {
    var a, b :| 0 <= a < b < |rest| && rest[a].0 == rest[b].0;
    var f := [x] + rest;
    assert f[a + 1].0 == f[b + 1].0;
  }

  /**
   A delivery order whose bean appears only in the YAML inventory is migrated: the inventory
   added by the same run is visible to the bean check.
   */
  lemma OrderSeesInventoryOfSameRun(db: Db, data: YamlData, o: DeliveryOrder)
    requires Migrate(db, data).Ok?
    requires o in data.orders && o.id !in db.orders
    requires o.beans !in db.beanInventory && o.beans in data.inventory
    ensures o.id in Migrate(db, data).value.orders
    ensures Migrate(db, data).value.orders[o.id] == o
  {
    MigrateStoresAbsentRecords(db, data);
  }

  /**
   The row of a single item: `product_id` when that key is present (a null or empty value
   skips the item, without falling back), otherwise `id`; an item with neither is skipped.
   */
  lemma ItemProductIdFallback(orderId: string, item: YamlItem)
    ensures item.productId.Truthy() && item.quantity.Some? ==>
      ItemRows(orderId, [item]) == Ok([BeanOrderItem(orderId, item.productId.text, item.quantity.value)])
    ensures item.productId.Missing? && item.id.Truthy() && item.quantity.Some? ==>
      ItemRows(orderId, [item]) == Ok([BeanOrderItem(orderId, item.id.text, item.quantity.value)])
    ensures !item.productId.Truthy() && !(item.productId.Missing? && item.id.Truthy()) ==>
      ItemRows(orderId, [item]) == Ok([])
    ensures ItemProductId(item).Truthy() && item.quantity.None? ==> ItemRows(orderId, [item]) == Err(MissingQuantity)
  {
    var one := [item];
    assert one[1..] == [] && ItemRows(orderId, one[1..]) == Ok([]);
    if ItemProductId(item).Truthy() && item.quantity.Some? {
      var row := BeanOrderItem(orderId, ItemProductId(item).text, item.quantity.value);
      assert [row] + [] == [row];
    }
  }

  /**
   The rows of a list of items are the rows of its first part followed by those of the rest:
   the loop adds the rows in item order.
   */
  lemma {:induction false} ItemRowsAppend(orderId: string, xs: seq<YamlItem>, ys: seq<YamlItem>)
    ensures ItemRows(orderId, xs + ys).Ok? <==> ItemRows(orderId, xs).Ok? && ItemRows(orderId, ys).Ok?
    ensures ItemRows(orderId, xs + ys).Ok? ==>
      ItemRows(orderId, xs + ys).value == ItemRows(orderId, xs).value + ItemRows(orderId, ys).value
    decreases |xs|
  {
    if |xs| == 0 {
      assert xs + ys == ys;
      if ItemRows(orderId, ys).Ok? {
        assert [] + ItemRows(orderId, ys).value == ItemRows(orderId, ys).value;
      }
    } else {
      var all := xs + ys;
      assert all[0] == xs[0] && all[1..] == xs[1..] + ys;
      ItemRowsAppend(orderId, xs[1..], ys);
      var pid := ItemProductId(xs[0]);
      if ItemRows(orderId, all).Ok? && pid.Truthy() {
        var row := BeanOrderItem(orderId, pid.text, xs[0].quantity.value);
        var a := ItemRows(orderId, xs[1..]).value;
        var b := ItemRows(orderId, ys).value;
        assert [row] + (a + b) == ([row] + a) + b;
      }
    }
  }

  /** The loop's view of `ItemRows`: the last item adds its row, if any, after all earlier rows. */
  lemma ItemRowsSnoc(orderId: string, items: seq<YamlItem>)
    requires |items| > 0
    ensures var last := items[|items| - 1];
      ItemRows(orderId, items).Ok? ==>
        ItemRows(orderId, items).value == ItemRows(orderId, items[..|items| - 1]).value
          + (if ItemProductId(last).Truthy()
             then [BeanOrderItem(orderId, ItemProductId(last).text, last.quantity.value)]
             else [])
  {
    var last := items[|items| - 1];
    assert items == items[..|items| - 1] + [last];
    ItemRowsAppend(orderId, items[..|items| - 1], [last]);
    ItemProductIdFallback(orderId, last);
  }

  /** The rows of all new orders are each order's rows, concatenated in order. */
  lemma {:induction false} AllItemRowsAppend(xs: seq<YamlBeanOrder>, ys: seq<YamlBeanOrder>)
    ensures AllItemRows(xs + ys).Ok? <==> AllItemRows(xs).Ok? && AllItemRows(ys).Ok?
    ensures AllItemRows(xs + ys).Ok? ==> AllItemRows(xs + ys).value == AllItemRows(xs).value + AllItemRows(ys).value
    decreases |xs|
  {
    if |xs| == 0 {
      assert xs + ys == ys;
      if AllItemRows(ys).Ok? {
        assert [] + AllItemRows(ys).value == AllItemRows(ys).value;
      }
    } else {
      var all := xs + ys;
      assert all[0] == xs[0] && all[1..] == xs[1..] + ys;
      AllItemRowsAppend(xs[1..], ys);
      if AllItemRows(all).Ok? {
        var r := ItemRows(xs[0].header.orderId, xs[0].items).value;
        var a := AllItemRows(xs[1..]).value;
        var b := AllItemRows(ys).value;
        assert r + (a + b) == (r + a) + b;
      }
    }
  }

  /** A single order contributes exactly its own item rows. */
  lemma AllItemRowsOfOne(o: YamlBeanOrder)
    ensures AllItemRows([o]) == ItemRows(o.header.orderId, o.items)
  {
    var one := [o];
    assert one[1..] == [];
    if ItemRows(o.header.orderId, o.items).Ok? {
      assert ItemRows(o.header.orderId, o.items).value + [] == ItemRows(o.header.orderId, o.items).value;
    }
  }
}


=== FILE: order_detail.dfy ===
/**
 The pure parts of the bean-order detail page (frontend/src/OrderDetailPage.jsx): the status
 badge, the per-line subtotal and the placeholders shown for empty fields.
 */
module OrderDetail {
  import opened Wrappers
  import opened Store
  import opened JsLookup
  import BeanOrders

  /** The badge table of the page: one entry per bean-order status. */
  const StatusMap: map<string, Badge> := map[
    "paid" := Badge("新規受付", Yellow),
    "shipped" := Badge("発送準備中", Blue),
    "delivered" := Badge("完了", Green),
    "cancelled" := Badge("キャンセル", Gray)
  ]

  /**
   The badge for a status as the page is meant to show it: the table's entry for a listed
   status, otherwise the raw status in gray. This reads only the table's own entries.
   */
  function StatusBadge(status: string): (b: Badge)
    ensures status == "paid" ==> b == Badge("新規受付", Yellow)
    ensures status == "shipped" ==> b == Badge("発送準備中", Blue)
    ensures status == "delivered" ==> b == Badge("完了", Green)
    ensures status == "cancelled" ==> b == Badge("キャンセル", Gray)
    ensures status !in {"paid", "shipped", "delivered", "cancelled"} ==> b == Badge(status, Gray)
  {
    if status in StatusMap then StatusMap[status] else Badge(status, Gray)
  }

  /**
   The badge as written: `statusMap[status] || { text: status, color: 'gray' }`, then the
   `text` and `color` fields read off the result. For an inherited member of
   `Object.prototype` both fields are `undefined`.
   */
  function StatusBadgeAsWritten(status: string): (r: Rendered)
    ensures status in PrototypeNames ==> r == Rendered(Nothing, Nothing)
    ensures status !in PrototypeNames ==> r == Render(StatusBadge(status))
  {
    match Lookup(StatusMap, status)
    case Own(b) => Render(b)
    case Inherited(_) => Rendered(Nothing, Nothing)
    case Undefined => Render(Badge(status, Gray))
  }

  /** The as-written badge and the intended one differ exactly on the inherited member names. */
  lemma AsWrittenDiffersExactlyOnPrototypeNames(status: string)
    ensures StatusBadgeAsWritten(status) != Render(StatusBadge(status)) <==> status in PrototypeNames
  {
  }

  /** A stored status of `constructor`, which no check in the back end rejects, renders an empty badge. */
  lemma ConstructorStatusLosesItsLabel()
    ensures StatusBadgeAsWritten("constructor").text == Nothing
    ensures StatusBadge("constructor") == Badge("constructor", Gray)
  {
    assert "constructor" in PrototypeNames;
  }

  /** Every bean order the store creates shows the new-order badge. */
  lemma CreatedOrderShowsNewOrderBadge(db: Db, user: Principal, request: BeanOrders.BeanOrderRequest, today: string)
    requires BeanOrders.CreateBeanOrder(db, user, request, today).outcome.Ok?
    ensures var created := BeanOrders.CreateBeanOrder(db, user, request, today).outcome.value;
      StatusBadge(created.order.status) == Badge("新規受付", Yellow)
  {
  }

  /** One line of the detail page's item table. */
  datatype DetailLine = DetailLine(
    productId: string,
    unitPrice: int,
    quantity: int,
    roastingDate: Option<string>,
    lotNumber: Option<string>)

  /** The subtotal column: unit price times quantity. */
  function LineSubtotal(line: DetailLine): (r: int)
    ensures line.quantity == 0 ==> r == 0
    ensures line.quantity == 1 ==> r == line.unitPrice
    ensures line.unitPrice >= 0 && line.quantity >= 0 ==> r >= 0
  {
    line.unitPrice * line.quantity
  }

  /** The sum of the subtotal column. */
  function SubtotalSum(lines: seq<DetailLine>): int {
    if |lines| == 0 then 0 else LineSubtotal(lines[0]) + SubtotalSum(lines[1..])
  }

  /**
   When the page shows the items of an order with the prices the products had when the order
   was placed, its subtotals add up to the total the store recorded for it.
   */
  lemma {:induction false} SubtotalsAddUpToOrderTotal(
    products: map<string, Product>, items: seq<BeanOrders.CartItem>, lines: seq<DetailLine>)
    requires BeanOrders.AllKnown(products, items)
    requires |lines| == |items|
    requires forall i | 0 <= i < |items| ::
      lines[i].productId == items[i].id && lines[i].quantity == items[i].quantity
      && lines[i].unitPrice == products[items[i].id].price
    ensures SubtotalSum(lines) == BeanOrders.PriceTotal(products, items)
    decreases |items|
  {
    if |items| > 0 {
      SubtotalsAddUpToOrderTotal(products, items[1..], lines[1..]);
    }
  }

  /** Placeholders for empty fields: roasting date and lot number, coupon, carrier, tracking number, notes. */
  const NotAvailable: string := "N/A"
  const NoCoupon: string := "なし"
  const NoCarrier: string := "未定"
  const NoTracking: string := "未発行"
  const NoNotes: string := "メモはありません"

  /**
   `field || placeholder` for a field of the order JSON that is `null`/absent (`None`) or a
   string: an absent or empty string shows the placeholder.
   */
  function OrPlaceholder(field: Option<string>, placeholder: string): (r: string)
    ensures field.None? ==> r == placeholder
    ensures field == Some("") ==> r == placeholder
    ensures field.Some? && field.value != "" ==> r == field.value
  {
    match field
    case Some(s) => if s == "" then placeholder else s
    case None => placeholder
  }
}

=== FILE: order_ids.dfy ===
/**
 Identifier generation for new orders (backend/main.py). A retail order id is the text
 `bo-` followed by the new row number, written in decimal and zero-padded to at least three
 digits (Python's `f"bo-{n:03d}"`). A delivery order id is the row count plus 1001.
 */
module OrderIds {
  import opened Wrappers

  /** The decimal digit for `d`. */
  function DigitChar(d: nat): (c: char)
    requires d < 10
    ensures '0' <= c <= '9'
    ensures DigitValue(c) == d
  {
    ('0' as int + d) as char
  }

  /** The value of a decimal digit character. */
  function DigitValue(c: char): nat
    requires '0' <= c <= '9'
  {
    c as int - '0' as int
  }

  predicate IsDigits(s: string) {
    forall i | 0 <= i < |s| :: '0' <= s[i] <= '9'
  }

  /** The shortest decimal text of `n` (Python's `str(n)` for a non-negative int). */
  function Decimal(n: nat): (s: string)
    ensures |s| >= 1 && IsDigits(s)
    ensures n < 10 <==> |s| == 1
    ensures 10 <= n < 100 ==> |s| == 2
    ensures 100 <= n < 1000 ==> |s| == 3
    decreases n
  {
    if n < 10 then [DigitChar(n)] else Decimal(n / 10) + [DigitChar(n % 10)]
  }

  /** Left-pads `s` with '0' up to `width` characters; longer text is left as it is. */
  function ZeroPad(s: string, width: nat): (r: string)
    ensures |r| == if |s| >= width then |s| else width
    ensures IsDigits(s) ==> IsDigits(r)
    decreases width - |s|
  {
    if |s| >= width then s else ZeroPad("0" + s, width)
  }

  /** Reads a run of decimal digits back as a number, most significant digit first. */
  function ParseDecimal(s: string): nat
    requires IsDigits(s)
  {
    if |s| == 0 then 0 else ParseDecimal(s[..|s| - 1]) * 10 + DigitValue(s[|s| - 1])
  }

  /** The id given to the bean order created when the table already holds `count` rows. */
  function FormatBeanOrderId(count: nat): (id: string)
    ensures |id| >= 6 && id[..3] == "bo-" && IsDigits(id[3..])
    ensures count < 999 ==> |id| == 6
  {
    "bo-" + ZeroPad(Decimal(count + 1), 3)
  }

  /** Recovers the row count from a generated bean order id; `None` for any other text. */
  function ParseBeanOrderId(id: string): Option<nat> {
    if |id| < 4 || id[..3] != "bo-" || !IsDigits(id[3..]) || ParseDecimal(id[3..]) == 0 then None
    else Some(ParseDecimal(id[3..]) - 1)
  }

  /** The id given to the delivery order created when the table already holds `count` rows. */
  function DeliveryOrderId(count: nat): (id: int)
    ensures id >= 1001
    ensures id - 1001 == count
  {
    count + 1001
  }

  lemma {:induction false} ParseDecimalOfDecimal(n: nat)
    ensures ParseDecimal(Decimal(n)) == n
    decreases n
  {
    if n >= 10 {
      var s := Decimal(n);
      assert s[..|s| - 1] == Decimal(n / 10);
      ParseDecimalOfDecimal(n / 10);
    }
  }

  /** Leading zeros do not change the value that is read. */
  lemma {:induction false} ParseDecimalLeadingZero(s: string)
    requires IsDigits(s)
    ensures IsDigits("0" + s) && ParseDecimal("0" + s) == ParseDecimal(s)
    decreases |s|
  {
    var z := "0" + s;
    if |s| > 0 {
      assert z[..|z| - 1] == "0" + s[..|s| - 1];
      ParseDecimalLeadingZero(s[..|s| - 1]);
    } else {
      assert z[..0] == "";
    }
  }

  lemma {:induction false} ParseDecimalOfZeroPad(s: string, width: nat)
    requires IsDigits(s)
    ensures ParseDecimal(ZeroPad(s, width)) == ParseDecimal(s)
    decreases width - |s|
  {
    if |s| < width {
      ParseDecimalLeadingZero(s);
      ParseDecimalOfZeroPad("0" + s, width);
    }
  }

  /** Every generated bean order id reads back as the row count it was generated from. */
  lemma BeanOrderIdRoundTrip(count: nat)
    ensures ParseBeanOrderId(FormatBeanOrderId(count)) == Some(count)
  {
    var id := FormatBeanOrderId(count);
    assert id[3..] == ZeroPad(Decimal(count + 1), 3);
    ParseDecimalOfZeroPad(Decimal(count + 1), 3);
    ParseDecimalOfDecimal(count + 1);
  }

  /** Different row counts never produce the same bean order id. */
  lemma BeanOrderIdInjective(a: nat, b: nat)
    ensures FormatBeanOrderId(a) == FormatBeanOrderId(b) ==> a == b
  {
    BeanOrderIdRoundTrip(a);
    BeanOrderIdRoundTrip(b);
  }
}

=== FILE: products.dfy ===
/**
 The admin product edit, `PATCH /admin/products/{id}` (backend/main.py:579-612): a partial
 update that overwrites exactly the fields present in the request body.
 */
module Products {
  import opened Wrappers
  import opened Store
  import Auth

  /** A field of a partial update: absent from the body, or present with a value. */
  datatype Patch<+T> = Unset | Set(value: T)
  {
    /** The value the field ends up with when its current value is `current`. */
    function Over(current: T): T {
      match this
      case Unset => current
      case Set(v) => v
    }
  }

  /** The request body; `price` and `stock` are plain integers, with no sign check. */
  datatype ProductUpdate = ProductUpdate(
    name: Patch<string>,
    description: Patch<string>,
    price: Patch<int>,
    stock: Patch<int>)

  /** The update with no field set. */
  const NoChange: ProductUpdate := ProductUpdate(Unset, Unset, Unset, Unset)

  /** Overwrites the fields present in `update`; the id and the image keep their values. */
  function ApplyUpdate(p: Product, update: ProductUpdate): (q: Product)
    ensures q.id == p.id && q.imageUrl == p.imageUrl
    ensures update.name.Unset? ==> q.name == p.name
    ensures update.name.Set? ==> q.name == update.name.value
    ensures update.description.Unset? ==> q.description == p.description
    ensures update.description.Set? ==> q.description == update.description.value
    ensures update.price.Unset? ==> q.price == p.price
    ensures update.price.Set? ==> q.price == update.price.value
    ensures update.stock.Unset? ==> q.stock == p.stock
    ensures update.stock.Set? ==> q.stock == update.stock.value
  {
    p.(name := update.name.Over(p.name),
       description := update.description.Over(p.description),
       price := update.price.Over(p.price),
       stock := update.stock.Over(p.stock))
  }

  /**
   `PATCH /admin/products/{id}`. Non-admins get 403 before anything is looked up, an unknown
   id 404; otherwise only that product changes, and only in the fields present.
   */
  function UpdateProduct(db: Db, user: Principal, productId: string, update: ProductUpdate): (r: Reply<Product>)
    ensures r.outcome.Err? ==> r.db == db
    ensures user.role != Auth.AdminRole ==> r.outcome == Err(Forbidden)
    ensures r.outcome.Ok? <==> user.role == Auth.AdminRole && productId in db.products
    ensures user.role == Auth.AdminRole && productId !in db.products ==> r.outcome == Err(NotFound)
    ensures r.outcome.Ok? ==>
      && r.db.products.Keys == db.products.Keys
      && r.outcome.value == r.db.products[productId]
      && r.db.products[productId] == ApplyUpdate(db.products[productId], update)
      && (forall k | k in db.products && k != productId :: r.db.products[k] == db.products[k])
      && r.db.(products := db.products) == db
  {
    match Auth.RequireAdmin(user)
    case Err(e) => Reply(db, Err(e))
    case Ok(_) =>
      if productId !in db.products then Reply(db, Err(NotFound))
      else
        var updated := ApplyUpdate(db.products[productId], update);
        Reply(db.(products := db.products[productId := updated]), Ok(updated))
  }

  /** After setting price and stock, the product reads back with exactly those and its other fields. */
  lemma EditThenRead(db: Db, admin: Principal, productId: string, price: int, stock: int)
    requires admin.role == "admin" && productId in db.products
    ensures var r := UpdateProduct(db, admin, productId, ProductUpdate(Unset, Unset, Set(price), Set(stock)));
      && r.outcome.Ok?
      && r.db.products[productId] == db.products[productId].(price := price, stock := stock)
  {
  }

  /** The edit accepts a negative price or stock: nothing checks the sign. */
  lemma NegativeStockAccepted(db: Db, admin: Principal, productId: string)
    requires admin.role == "admin" && productId in db.products
    ensures UpdateProduct(db, admin, productId, ProductUpdate(Unset, Unset, Unset, Set(-1)))
      .db.products[productId].stock == -1
  {
  }

  /** An empty update leaves the database as it was. */
  lemma EmptyUpdateIsIdentity(db: Db, admin: Principal, productId: string)
    requires admin.role == "admin" && productId in db.products
    ensures UpdateProduct(db, admin, productId, NoChange).db == db
  {
    assert db.products[productId := db.products[productId]] == db.products;
  }

  /** Applying the same edit twice has the effect of applying it once. */
  lemma UpdateIdempotent(db: Db, user: Principal, productId: string, update: ProductUpdate)
    ensures var once := UpdateProduct(db, user, productId, update).db;
      UpdateProduct(once, user, productId, update).db == once
  {
    var once := UpdateProduct(db, user, productId, update).db;
    if user.role == "admin" && productId in db.products {
      var p := once.products[productId];
      assert ApplyUpdate(p, update) == p;
      assert once.products[productId := p] == once.products;
    }
  }
}

=== FILE: store.dfy ===
/**
 The persistent state of the backend: one immutable value holding every table that the
 SQLAlchemy models of backend/main.py declare, plus the HTTP error vocabulary of its
 endpoints. Each request is modelled as one atomic transition of this value.
 */
module Store {
  import opened Wrappers

  /** A row of the `users` table; the password hash is not part of the model. */
  datatype UserRecord = UserRecord(
    id: int,
    name: string,
    department: string,
    email: string,
    preferredBeans: string,
    role: string)

  /** The authenticated caller as the endpoints see it (the `User` response model). */
  datatype Principal = Principal(id: int, email: string, name: string, role: string)

  /** A row of the `products` table: a retail bean product. */
  datatype Product = Product(
    id: string,
    name: string,
    description: string,
    price: int,
    stock: int,
    imageUrl: string)

  /** A row of the `bean_orders` table: a retail order header. */
  datatype BeanOrder = BeanOrder(
    orderId: string,
    userId: int,
    date: string,
    totalPrice: int,
    shippingAddress: string,
    status: string)

  /** A row of the `bean_order_items` table; its auto-increment key is the row's position. */
  datatype BeanOrderItem = BeanOrderItem(beanOrderId: string, productId: string, quantity: int)

  /** A row of the `orders` table: an on-demand delivery order. */
  datatype DeliveryOrder = DeliveryOrder(
    id: int,
    userId: int,
    date: string,
    time: string,
    size: string,
    beans: string,
    status: string,
    notes: Option<string>)

  /**
   The whole database. Tables with a primary key are maps from that key; `users` is keyed
   by the unique e-mail column; `bean_inventory` maps a delivery bean name to its stock.
   */
  datatype Db = Db(
    users: map<string, UserRecord>,
    products: map<string, Product>,
    beanInventory: map<string, int>,
    orders: map<int, DeliveryOrder>,
    beanOrders: map<string, BeanOrder>,
    beanOrderItems: seq<BeanOrderItem>)

  /** The HTTP errors the modelled endpoints raise. */
  datatype HttpError = BadRequest | Forbidden | NotFound | InternalError
  {
    /** The status code sent to the client. */
    function Code(): int {
      match this
      case BadRequest => 400
      case Forbidden => 403
      case NotFound => 404
      case InternalError => 500
    }
  }

  /**
   What a request leaves behind: the database after the request (the original one when the
   transaction was rolled back) and the response.
   */
  datatype Reply<+T> = Reply(db: Db, outcome: Result<T, HttpError>)
}

=== FILE: subscription_badges.dfy ===
/**
 The status badge of the subscription list (frontend/src/SubscriptionPage.jsx): one table for
 the colour and one for the label, each with its own fallback.
 */
module SubscriptionBadges {
  import opened JsLookup

  const ColorMap: map<string, Color> := map[
    "active" := Green,
    "paused" := Yellow,
    "cancelled" := Gray,
    "payment_failed" := Red
  ]

  const TextMap: map<string, string> := map[
    "active" := "アクティブ",
    "paused" := "一時停止中",
    "cancelled" := "解約済",
    "payment_failed" := "決済失敗中"
  ]

  /** The badge as intended: listed statuses get their colour and label, others gray and the raw status. */
  function StatusBadge(status: string): (b: Badge)
    ensures status == "active" ==> b == Badge("アクティブ", Green)
    ensures status == "paused" ==> b == Badge("一時停止中", Yellow)
    ensures status == "cancelled" ==> b == Badge("解約済", Gray)
    ensures status == "payment_failed" ==> b == Badge("決済失敗中", Red)
    ensures status !in {"active", "paused", "cancelled", "payment_failed"} ==> b == Badge(status, Gray)
  {
    Badge(if status in TextMap then TextMap[status] else status,
          if status in ColorMap then ColorMap[status] else Gray)
  }

  /** The two tables list the same statuses, so a status gets both fallbacks or neither. */
  lemma TablesAgreeOnStatuses(status: string)
    ensures status in ColorMap <==> status in TextMap
    ensures status !in TextMap ==> StatusBadge(status) == Badge(status, Gray)
  {
  }

  /** Only a raw status can be shown as itself: a listed status never shows its key. */
  lemma ListedStatusShowsTranslation(status: string)
    requires status in TextMap
    ensures StatusBadge(status).text != status
    ensures StatusBadge(status).text in TextMap.Values
  {
  }

  /** The badge as written: `statusMap[status] || 'gray'` and `statusTextMap[status] || status`. */
  function StatusBadgeAsWritten(status: string): (r: Rendered)
    ensures status in PrototypeNames ==> r == Rendered(PrototypeMember(status), PrototypeMember(status))
    ensures status !in PrototypeNames ==>
      r == Render(StatusBadge(status))
  {
    Rendered(OrElse(Lookup(TextMap, status), status), OrElse(Lookup(ColorMap, status), Gray))
  }

  /**
   The as-written mapping is not total: exactly the inherited member names yield something that
   is neither a colour nor a label.
   */
  lemma AsWrittenTotalExceptPrototypeNames(status: string)
    ensures StatusBadgeAsWritten(status).text.Value? && StatusBadgeAsWritten(status).color.Value?
      <==> status !in PrototypeNames
  {
  }

  /** `toString` as a status is shown as the inherited method instead of gray raw text. */
  lemma ToStringStatusMisrendered()
    ensures StatusBadgeAsWritten("toString").color == PrototypeMember("toString")
    ensures StatusBadge("toString") == Badge("toString", Gray)
  {
    assert "toString" in PrototypeNames;
  }
}

=== FILE: subscription_editor.dfy ===
/**
 The item editor and submit guard of the new-subscription form
 (frontend/src/SubscriptionModal.jsx). The form keeps a list of items, at most one per
 product; submitting sends the contract with the items reduced to product id and quantity.
 Browser input parsing (`parseInt`) is outside the model: quantities and the customer id
 arrive already parsed.
 */
module SubscriptionEditor {
  import opened Wrappers
  import opened Store

  /** An entry of the form's item list. */
  datatype DraftItem = DraftItem(productId: string, quantity: int, productName: string)

  /** The form state. */
  datatype Form = Form(
    userId: string,
    planName: string,
    interval: string,
    nextDeliveryDate: string,
    status: string,
    items: seq<DraftItem>,
    selectedProduct: string,
    selectedQuantity: int)

  /** An item of the submitted contract. */
  datatype ContractItem = ContractItem(productId: string, quantity: int)

  /** The body sent to create the contract; `userId` is `None` when the id did not parse. */
  datatype ContractPayload = ContractPayload(
    userId: Option<int>,
    planName: string,
    interval: string,
    nextDeliveryDate: string,
    status: string,
    items: seq<ContractItem>)

  predicate HasProduct(items: seq<DraftItem>, productId: string) {
    exists i | 0 <= i < |items| :: items[i].productId == productId
  }

  predicate NoDuplicates(items: seq<DraftItem>) {
    forall i, j | 0 <= i < j < |items| :: items[i].productId != items[j].productId
  }

  /**
   The form as it is once the catalogue has loaded (lines 7-13, 21-22, 34-36): monthly,
   active, no items, quantity 1, the first product preselected when there is one.
   */
  function OpenForm(products: seq<Product>): (f: Form)
    ensures f.interval == "monthly" && f.status == "active"
    ensures f.items == [] && f.selectedQuantity == 1
    ensures |products| > 0 ==> f.selectedProduct == products[0].id
    ensures |products| == 0 ==> f.selectedProduct == ""
  {
    Form("", "", "monthly", "", "active", [], if |products| > 0 then products[0].id else "", 1)
  }

  /** The first product with the given id (`products.find`). */
  function FindProduct(products: seq<Product>, id: string): (r: Option<Product>)
    ensures r.None? <==> forall i | 0 <= i < |products| :: products[i].id != id
    ensures r.Some? ==> r.value in products && r.value.id == id
    decreases |products|
  {
    if |products| == 0 then None
    else if products[0].id == id then Some(products[0])
    else
      var r := FindProduct(products[1..], id);
      assert forall i | 1 <= i < |products| :: products[i] == products[1..][i - 1];
      r
  }

  /**
   `handleAddItem` (lines 46-57). Refused, leaving the list as it is, when no product is
   selected or the product is already listed; otherwise one entry for the selected product is
   appended. A selection missing from the catalogue makes the handler throw before the list
   is set, so the list is unchanged then too.
   */
  function AddItem(items: seq<DraftItem>, products: seq<Product>, selected: string, quantity: int)
    : (r: seq<DraftItem>)
    ensures selected == "" || HasProduct(items, selected) ==> r == items
    ensures r == items || (|r| == |items| + 1 && r[..|items|] == items)
    ensures r != items ==>
      && selected != "" && !HasProduct(items, selected)
      && r[|items|].productId == selected && r[|items|].quantity == quantity
      && exists p | p in products :: p.id == selected && p.name == r[|items|].productName
    ensures selected != "" && !HasProduct(items, selected) && FindProduct(products, selected).Some? ==> r != items
    ensures NoDuplicates(items) ==> NoDuplicates(r)
  {
    if selected == "" || HasProduct(items, selected) then items
    else
      match FindProduct(products, selected)
      case None => items
      case Some(p) =>
        var r := items + [DraftItem(p.id, quantity, p.name)];
        assert r[|items|] == DraftItem(p.id, quantity, p.name);
        assert NoDuplicates(items) ==> NoDuplicates(r) by {
          forall i | 0 <= i < |items| ensures r[i].productId != r[|items|].productId {
            assert items[i].productId != selected;
          }
        }
        assert r[..|items|] == items;
        r
  }

  /** `handleRemoveItem` (lines 59-61): drops the entries for the product, keeping the others in order. */
  function RemoveItem(items: seq<DraftItem>, productId: string): (r: seq<DraftItem>)
    ensures !HasProduct(r, productId)
    ensures forall d | d in items && d.productId != productId :: d in r
    ensures forall d | d in r :: d in items
    ensures |r| <= |items|
    decreases |items|
  {
    if |items| == 0 then []
    else
      var rest := RemoveItem(items[1..], productId);
      assert forall d | d in items[1..] :: d in items;
      if items[0].productId == productId then rest else [items[0]] + rest
  }

  /** Removing entries never creates a duplicate. */
  lemma {:induction false} RemoveKeepsNoDuplicates(items: seq<DraftItem>, productId: string)
    requires NoDuplicates(items)
    ensures NoDuplicates(RemoveItem(items, productId))
    decreases |items|
  {
    if |items| > 0 {
      var rest := RemoveItem(items[1..], productId);
      RemoveKeepsNoDuplicates(items[1..], productId);
      if items[0].productId != productId {
        var r := [items[0]] + rest;
        forall j | 0 < j < |r| ensures r[0].productId != r[j].productId {
          assert r[j] in items[1..];
          var k :| 0 <= k < |items[1..]| && items[1..][k] == r[j];
          assert items[k + 1] == r[j];
        }
      }
    }
  }

  /** The submitted items: each entry's product id and quantity, in order, without the name. */
  function ContractItems(items: seq<DraftItem>): (r: seq<ContractItem>)
    ensures |r| == |items|
    ensures forall i | 0 <= i < |items| :: r[i] == ContractItem(items[i].productId, items[i].quantity)
  {
    seq(|items|, i requires 0 <= i < |items| => ContractItem(items[i].productId, items[i].quantity))
  }

  /**
   `handleSubmit` (lines 63-87): with no items nothing is sent; otherwise the contract carries
   the form's fields and the projected items. `parsedUserId` is the already parsed customer id.
   */
  function Submit(form: Form, parsedUserId: Option<int>): (r: Option<ContractPayload>)
    ensures r.None? <==> |form.items| == 0
    ensures r.Some? ==>
      && r.value.items == ContractItems(form.items)
      && r.value.userId == parsedUserId
      && r.value.planName == form.planName && r.value.interval == form.interval
      && r.value.nextDeliveryDate == form.nextDeliveryDate && r.value.status == form.status
  {
    if |form.items| == 0 then None
    else Some(ContractPayload(parsedUserId, form.planName, form.interval, form.nextDeliveryDate,
                              form.status, ContractItems(form.items)))
  }

  /** A user action on the item list. */
  datatype Edit = Add(selected: string, quantity: int) | Remove(productId: string)

  /** The item list after a sequence of user actions. */
  function ApplyEdits(items: seq<DraftItem>, products: seq<Product>, edits: seq<Edit>): seq<DraftItem>
    decreases |edits|
  {
    if |edits| == 0 then items
    else
      var next := match edits[0]
        case Add(selected, quantity) => AddItem(items, products, selected, quantity)
        case Remove(productId) => RemoveItem(items, productId);
      ApplyEdits(next, products, edits[1..])
  }

  /** No sequence of adds and removes puts two entries for the same product in the list. */
  lemma {:induction false} EditsKeepNoDuplicates(items: seq<DraftItem>, products: seq<Product>, edits: seq<Edit>)
    requires NoDuplicates(items)
    ensures NoDuplicates(ApplyEdits(items, products, edits))
    decreases |edits|
  {
    if |edits| > 0 {
      var next := match edits[0]
        case Add(selected, quantity) => AddItem(items, products, selected, quantity)
        case Remove(productId) => RemoveItem(items, productId);
      if edits[0].Remove? {
        RemoveKeepsNoDuplicates(items, edits[0].productId);
      }
      EditsKeepNoDuplicates(next, products, edits[1..]);
    }
  }

  /**
   Whatever the user does starting from the opened form, a submitted contract never lists
   a product twice, and a form whose items were all removed submits nothing.
   */
  lemma SubmittedItemsAreDistinct(products: seq<Product>, edits: seq<Edit>, parsedUserId: Option<int>)
    ensures var form := OpenForm(products).(items := ApplyEdits([], products, edits));
      var sent := Submit(form, parsedUserId);
      sent.Some? ==> forall i, j | 0 <= i < j < |sent.value.items| ::
        sent.value.items[i].productId != sent.value.items[j].productId
  {
    EditsKeepNoDuplicates([], products, edits);
  }

  /** Removing the product just added restores the list: add and remove are inverses. */
  lemma {:induction false} RemoveUndoesAdd(items: seq<DraftItem>, products: seq<Product>, selected: string, quantity: int)
    requires AddItem(items, products, selected, quantity) != items
    ensures RemoveItem(AddItem(items, products, selected, quantity), selected) == items
  {
    var r := AddItem(items, products, selected, quantity);
    RemoveAbsent(items, selected);
    RemoveAppend(items, r[|items|], selected);
    assert r == items + [r[|items|]];
  }

  lemma {:induction false} RemoveAbsent(items: seq<DraftItem>, productId: string)
    requires !HasProduct(items, productId)
    ensures RemoveItem(items, productId) == items
    decreases |items|
  {
    if |items| > 0 {
      RemoveAbsent(items[1..], productId);
      assert items[0].productId != productId;
    }
  }

  lemma {:induction false} RemoveAppend(items: seq<DraftItem>, d: DraftItem, productId: string)
    requires d.productId == productId
    ensures RemoveItem(items + [d], productId) == RemoveItem(items, productId)
    decreases |items|
  {
    if |items| == 0 {
      assert [d][1..] == [];
    } else {
      assert (items + [d])[1..] == items[1..] + [d];
      RemoveAppend(items[1..], d, productId);
    }
  }

  /**
   On a list without duplicates, removing the product of entry `i` cuts out exactly that entry
   and keeps the others in their order (the `filter` of lines 59-61).
   */
  lemma RemoveDropsTheEntry(items: seq<DraftItem>, i: nat)
    requires NoDuplicates(items) && i < |items|
    ensures RemoveItem(items, items[i].productId) == items[..i] + items[i + 1..]
  {
    assert SoleEntry(items, i);
    RemoveDropsSoleEntry(items, i);
  }

  /** Entry `i` is the only entry for its product. */
  predicate SoleEntry(items: seq<DraftItem>, i: nat)
    requires i < |items|
  {
    forall j | 0 <= j < |items| && j != i :: items[j].productId != items[i].productId
  }

  lemma {:induction false} RemoveDropsSoleEntry(items: seq<DraftItem>, i: nat)
    requires i < |items| && SoleEntry(items, i)
    ensures RemoveItem(items, items[i].productId) == items[..i] + items[i + 1..]
    decreases |items|
  {
    if i == 0 {
      RemoveDropsSoleHead(items);
    } else {
      SoleEntryInTail(items, i);
      RemoveDropsSoleEntry(items[1..], i - 1);
      RemoveSkipsHead(items, items[i].productId);
      SpliceAfterHead(items, i);
    }
  }

  lemma RemoveDropsSoleHead(items: seq<DraftItem>)
    requires |items| > 0 && SoleEntry(items, 0)
    ensures RemoveItem(items, items[0].productId) == items[1..]
  {
    var tail := items[1..];
    assert !HasProduct(tail, items[0].productId) by {
      forall j | 0 <= j < |tail| ensures tail[j].productId != items[0].productId {
        assert tail[j] == items[j + 1];
      }
    }
    RemoveAbsent(tail, items[0].productId);
  }

  lemma RemoveSkipsHead(items: seq<DraftItem>, productId: string)
    requires |items| > 0 && items[0].productId != productId
    ensures RemoveItem(items, productId) == [items[0]] + RemoveItem(items[1..], productId)
  {
  }

  lemma SpliceAfterHead(items: seq<DraftItem>, i: nat)
    requires 0 < i < |items|
    ensures items[..i] + items[i + 1..] == [items[0]] + (items[1..][..i - 1] + items[1..][i..])
  {
    assert items[..i] == [items[0]] + items[1..][..i - 1];
    assert items[i + 1..] == items[1..][i..];
  }

  lemma SoleEntryInTail(items: seq<DraftItem>, i: nat)
    requires 0 < i < |items| && SoleEntry(items, i)
    ensures SoleEntry(items[1..], i - 1) && items[1..][i - 1] == items[i]
    ensures items[0].productId != items[i].productId
  {
    var tail := items[1..];
    forall j | 0 <= j < |tail| && j != i - 1 ensures tail[j].productId != tail[i - 1].productId {
      assert tail[j] == items[j + 1];
    }
  }

  /** The same product cannot be added twice in a row. */
  lemma AddSameProductTwiceRefused(items: seq<DraftItem>, products: seq<Product>, selected: string, q1: int, q2: int)
    requires AddItem(items, products, selected, q1) != items
    ensures var once := AddItem(items, products, selected, q1);
      AddItem(once, products, selected, q2) == once
  {
    var once := AddItem(items, products, selected, q1);
    assert once[|items|].productId == selected;
  }
}

=== FILE: wrappers.dfy ===
/** Optional values and success/failure results shared by every module of the model. */
module Wrappers {

  /** A value that may be absent (a JavaScript `undefined`/`null`, a Python `None`, an unset field). */
  datatype Option<+T> = None | Some(value: T)

  /** The outcome of an operation that either produces a value or fails with an error. */
  datatype Result<+T, +E> = Ok(value: T) | Err(error: E)
}
